=== FILE: README.md ===
# ness_automation task package, modelled in Dafny

This project models the in-process task machinery of `ness_automation`:

- `Task` (`task.py`): the lifecycle of a wrapped unit of work — pending,
  running, completed, failed or cancelled — with its result, error text,
  timestamps and duration;
- `ScheduledTask` and `Scheduler` (`scheduler.py`): the due-time policy of
  a scheduled entry, and the scheduler's entry list with `schedule_task`,
  one polling pass `run_once`, `stop`, `get_pending_tasks` and
  `clear_completed_tasks`;
- `AutomationManager` (`automation_manager.py`): the name-to-task registry
  with its not-found errors, delegating to the scheduler;
- `Config` (`config.py`): dotted-key `get` and `set` over nested mappings,
  and the built-in default configuration.

Tasks are shared objects in Python: the registry and every entry that
schedules a task hold the same object. The model gives each task record a
`TaskId` in a heap (`map<TaskId, Task>`). The registry maps names to ids,
and each entry holds an id, so executing a task through any route changes
what every holder sees.

Time is an integer count of seconds, passed in as a parameter. The wrapped
callable becomes a `Run`: the outcome (`Returns(value)` or
`Raises(message)`) and how many seconds the work took. A pass of
`run_once` reads its work outcomes from an oracle indexed by the number of
executions so far, and carries the clock forward by each run's duration.
So `last_run` is the time after the work finished, and `is_due` for a later
entry reads the clock as it is by then.

Modules, one per file:

- `Wrappers`: `Option` and `Result`.
- `Sequences`: `Filter`, subsequences and distinctness.
- `Values`: the configuration and result values.
- `DottedKeys`: `str.split('.')`.
- `Config` and `ConfigDefaults`: `config.py`.
- `Tasks`: `task.py`.
- `Scheduling`: `scheduler.py` apart from `run_once`.
- `Polling`: `run_once`.
- `Automation`: `automation_manager.py`.

## Model

| member | source | states |
|---|---|---|
| `Tasks.NewTask` | src/ness_automation/task.py:42-52 | a new task keeps its name and description, is pending, and has no result, error, start or completion time; its creation time is the given clock reading |
| `Tasks.Execute` | src/ness_automation/task.py:54-79 | whatever the prior status: the outcome reaches the caller unchanged and `started_at` is the start time. `completed_at` is the start time plus the work's duration, so it is never earlier. Success completes the task with the returned value and keeps the old error. Failure fails it with the message and keeps the old result |
| `Tasks.Cancel` | src/ness_automation/task.py:81-85 | a pending task becomes cancelled; any other task is returned unchanged; only the status ever changes |
| `Tasks.Duration` | src/ness_automation/task.py:87-96 | present exactly when both timestamps are; then it is the gap from start to completion |
| `Tasks.NeverPendingAgain` | src/ness_automation/task.py:54-85 | no sequence of executions and cancellations brings a non-pending task back to pending |
| `Tasks.OnlyExecutionChangesSettledStatus` | src/ness_automation/task.py:81-85 | on a task that is not pending, any number of cancellations changes nothing |
| `Tasks.DurationNeverNegative` | src/ness_automation/task.py:54-96 | over any operation sequence the duration stays absent or non-negative, and it is present once any execution has happened |
| `Tasks.ExecutedStaysTimed` | src/ness_automation/task.py:65-85 | once a task has both timestamps, no later operation removes them |
| `Tasks.StaleErrorAfterRerun` | src/ness_automation/task.py:69-77 | a failed task re-executed successfully is completed with the new result and still carries the old error text |
| `Scheduling.Recurs` | src/ness_automation/scheduler.py:44 | the truthiness test `self.interval and self.repeat`: no recurrence without the repeat flag or with a missing or zero interval, and recurrence with the flag and any other interval, negative ones included |
| `Scheduling.NewEntry` | src/ness_automation/scheduler.py:33-37 | a new entry keeps its task, interval and repeat flag, has no `last_run`, and takes the given schedule time or else the current time |
| `Scheduling.IsDue` | src/ness_automation/scheduler.py:39-47 | never run: due iff now is at or past the schedule time. Run before and recurring (non-zero interval and repeat): due iff now is at or past `last_run` plus the interval. Run before and not recurring: never due |
| `Scheduling.ShouldRun` | src/ness_automation/scheduler.py:49-51 | false while the task is running; otherwise exactly `IsDue` |
| `Scheduling.DueStaysDue` | src/ness_automation/scheduler.py:39-47 | an entry that is due stays due at every later time |
| `Scheduling.DueAgainAfterInterval` | src/ness_automation/scheduler.py:44-46 | a recurring entry run at time `t` is due again exactly from `t` plus its interval |
| `Scheduling.NewScheduler` | src/ness_automation/scheduler.py:57-66 | a new scheduler keeps its poll interval, has no entries and is not running |
| `Scheduling.ScheduleTask` | src/ness_automation/scheduler.py:68-90 | the returned new entry is appended at the end; earlier entries are untouched and nothing is deduplicated, so the list grows by one |
| `Scheduling.Stop` | src/ness_automation/scheduler.py:114-117 | the run flag is cleared; entries and poll interval are unchanged |
| `Scheduling.PendingTasks` | src/ness_automation/scheduler.py:119-124 | an entry is listed iff it is scheduled and its task is pending; each is listed as often as it is scheduled, in schedule order |
| `Scheduling.ClearCompletedTasks` | src/ness_automation/scheduler.py:126-131 | an entry is kept iff it repeats or its task is not completed; kept entries keep their multiplicity and order |
| `Scheduling.ClearKeepsPending` | src/ness_automation/scheduler.py:119-131 | clearing completed entries does not change the pending list |
| `Polling.Visit` | src/ness_automation/scheduler.py:95-103 | the loop body for one entry. An entry that should not run is left alone. Otherwise its task is executed at the current time. On success a repeating entry gets `last_run` equal to the finish time, and a one-shot entry is removed. On failure the entry stays exactly as it was. Only that task's record changes |
| `Polling.VisitKeepsRunning` | src/ness_automation/scheduler.py:95-97 | one visit never makes a task `Running` or stops it being so: only a task not running is run, and a run ends completed or failed |
| `Polling.RunFrom` | src/ness_automation/scheduler.py:94-101 | the loop as written over the live list, from iterator index `i`: it never grows the list, keeps the heap's ids and never moves the clock back; `Polling.RunFromIsSweep` states what it computes |
| `Polling.Sweep` | src/ness_automation/scheduler.py:94-103 | the pass described over the original list: the heap keeps its ids and the clock never goes back |
| `Polling.LogRuns` | src/ness_automation/scheduler.py:94-97 | in the record of a pass, an entry's task runs exactly when the pass examines the entry, the entry is due at the clock of that moment, and its task was not running when the pass began |
| `Polling.LogChain` | src/ness_automation/scheduler.py:94-101 | the first step is at the pass's clock, before any execution, and is examined unless skipped; each later step starts when the previous run finished, counts one more execution after a run, and is examined unless the previous entry was removed and the pass skips after removals |
| `Polling.LogAnswers` | src/ness_automation/scheduler.py:97 | every step gets the work outcome for its execution number, and none happens before the pass began |
| `Polling.SweepSurvivors` | src/ness_automation/scheduler.py:95-101 | in either mode, an entry leaves the list exactly when its step ran it, the work returned, and it is a one-shot. A repeating entry whose work returned stays with `last_run` at the finish time. Every other entry (not due, task running, work raised, or skipped) stays exactly as it was, in the original order |
| `Polling.SweepHeapFrame` | src/ness_automation/scheduler.py:95-97 | a task that no step ran has the same record after the pass |
| `Polling.SweepSettlesRunTasks` | src/ness_automation/scheduler.py:95-97 | every task that some step ran is completed or failed after the pass |
| `Polling.SweepRecordsLastRuns` | src/ness_automation/scheduler.py:95-97 | in either mode, a task that ran ends the pass with the record of its last run: status completed and the returned value, or status failed and the exception's message, `started_at` at that step's clock and `completed_at` at its finish |
| `Polling.SweepKeepsFields` | src/ness_automation/scheduler.py:95-97 | in either mode, every task keeps its name, description and creation time; a task whose work never raised in the pass keeps its old error, and one whose work never returned keeps its old result |
| `Polling.SweepShrinks` | src/ness_automation/scheduler.py:94-101 | a pass never adds entries and examines at most as many as it was given |
| `Polling.SweepEmbeds` | src/ness_automation/scheduler.py:94-101 | the surviving entries are a subsequence of the original ones, each with the same task, schedule time, interval and repeat flag |
| `Polling.SweepKeepsRepeating` | src/ness_automation/scheduler.py:100-101 | a pass never removes a repeating entry |
| `Polling.SweepRefers` | src/ness_automation/scheduler.py:94-101 | every surviving entry still refers to a task in the heap |
| `Polling.SweepExaminesAll` | src/ness_automation/scheduler.py:94-101 | a pass that skips nothing examines every entry once, in order |
| `Polling.RunFromIsSweep` | src/ness_automation/scheduler.py:94-101 | the loop as written, indexing the live list that it shrinks, is the pass over the original list that passes over the entry after each removal |
| `Polling.SweepPass` | src/ness_automation/scheduler.py:94-103 | a whole pass started at `now` leaves exactly the survivors of its log. An entry is run iff it is examined, is due at the clock of its step, and its task was not running. It is removed iff it ran, its work returned and it is a one-shot; a repeating entry whose work returned gets `last_run` at the finish time; every other entry is unchanged. Tasks no entry ran keep their records. A task that ran holds what its last run left: completed with the returned value or failed with the message, started at that step's clock and completed when the work finished. Every task keeps its name, description and creation time; its error unless some run of it raised, and its result unless some run of it returned. The scheduler's other fields and the heap's ids are kept, the clock only moves forward, survivors keep their order and policy, and every repeating entry survives. Without skipping, every entry is examined |
| `Polling.PassLogSteps` | src/ness_automation/scheduler.py:94-101 | the same step rules for the log of a whole pass from `now`: an entry runs iff examined, due at that moment and not running; the first entry is examined at `now`; each step follows the one before; each execution gets its outcome |
| `Polling.RunOnce` | src/ness_automation/scheduler.py:92-103 | `run_once` as written: the live-list loop equals the skipping pass, so all of `SweepPass`'s guarantees hold |
| `Polling.SweepSkipsOnePerRemoval` | src/ness_automation/scheduler.py:94-101 | in the skipping pass, the number of unexamined entries equals the number of removals, or one fewer |
| `Polling.RunOnceSkipsOnePerRemoval` | src/ness_automation/scheduler.py:92-103 | `run_once` leaves unexamined as many entries as it removes, or one fewer; a pass that removes nothing examines every entry |
| `Polling.RunOnceSkipsEntryAfterRemoval` | src/ness_automation/scheduler.py:94-101 | take two due one-shot entries whose work succeeds. `run_once` runs and removes the first. It never examines the second, which stays listed, pending and due |
| `Polling.RunOnceSnapshot` | src/ness_automation/scheduler.py:92-103 | the corrected pass over a copy of the list examines every entry exactly once, in order, and runs every entry that is due when the pass starts and whose task is not running. The entries left are the survivors of its log, and every repeating entry survives |
| `Polling.SnapshotRunsDue` | src/ness_automation/scheduler.py:92-97 | in the corrected pass, every entry is examined, and each entry due at the start whose task is not running is run, since it stays due as the clock advances |
| `Polling.SweepAgreesWithoutRemoval` | src/ness_automation/scheduler.py:94-101 | a skipping pass that removes no entry is identical to the pass that skips nothing |
| `Polling.RunOnceAgreesWithoutRemoval` | src/ness_automation/scheduler.py:92-103 | when `run_once` as written removes no entry, its result is exactly that of the corrected pass |
| `Polling.SnapshotRunsBoth` | src/ness_automation/scheduler.py:94-101 | on the same two entries, the corrected pass runs both tasks to completion and removes both entries |
| `Polling.SucceedingOneShotLeaves` | src/ness_automation/scheduler.py:95-101 | a due one-shot entry, alone in the list, whose work succeeds is examined and run. Its entry is gone after the pass and its task is completed |
| `Polling.FailingOneShotIsRetried` | src/ness_automation/scheduler.py:96-103 | a due, never-run one-shot entry whose work raises stays listed with no `last_run`. Its task is failed, and the entry should run again at every later time |
| `Config.Get` | src/ness_automation/config.py:69-81 | `get` walks the split key. The answer is the value at that path when one exists and is not `None`. It is the default when a segment is missing, maps to `None`, or sits under a non-mapping. Falsy values such as `False` are returned as they are |
| `Config.Walk` | src/ness_automation/config.py:72-81 | the loop of `get`; for a non-empty key it answers `None` only when the default is `None`, and `Config.WalkIsLookup` says which value it finds |
| `Config.WalkIsLookup` | src/ness_automation/config.py:72-81 | the loop of `get` is the raw path lookup followed by the default rule |
| `Config.SetPath` | src/ness_automation/config.py:94-99 | the loop of `set`: at the top level only the first segment's entry is added or replaced and all others are kept; a one-segment key always succeeds |
| `Config.SetPathSucceeds` | src/ness_automation/config.py:94-99 | writing a path succeeds iff no proper prefix of it holds a non-mapping |
| `Config.SetPathStores` | src/ness_automation/config.py:94-99 | after a successful write, the path holds exactly the written value |
| `Config.SetPathCreatesIntermediates` | src/ness_automation/config.py:94-97 | after a successful write, every proper prefix of the path holds a mapping, created where missing |
| `Config.SetPathFrame` | src/ness_automation/config.py:94-99 | a write leaves every path that is neither a prefix nor an extension of the written one unchanged |
| `Config.Set` | src/ness_automation/config.py:91-99 | `set` succeeds iff the split key is not blocked by a non-mapping. The key then holds the value, and every path off the written one is unchanged |
| `Config.GetAfterSet` | src/ness_automation/config.py:69-99 | reading back a key just set gives the value set, or the default when that value is `None` |
| `Config.SetLeavesOtherKeys` | src/ness_automation/config.py:69-99 | a key whose segments neither extend nor prefix the written key reads the same after a `set` |
| `DottedKeys.Split` | src/ness_automation/config.py:69 | every piece of a split key is free of dots |
| `DottedKeys.SplitCount` | src/ness_automation/config.py:69 | a key splits into one more piece than it has dots |
| `DottedKeys.JoinSplit` | src/ness_automation/config.py:69 | joining the pieces of a split key with dots gives the key back |
| `DottedKeys.SplitJoin` | src/ness_automation/config.py:69 | splitting dot-joined dot-free segments gives the segments back |
| `ConfigDefaults.DefaultConfig` | src/ness_automation/config.py:42-56 | the built-in configuration has exactly the sections `automation` (keys `enabled`, `log_level`, `max_retries`), `scheduler` (key `check_interval`) and `tasks` (key `default_timeout`), with automation enabled, log level `INFO`, three retries, a 60-second scheduler poll and a 300-second task timeout |
| `ConfigDefaults.DefaultLookups` | src/ness_automation/config.py:42-56 | in the default configuration, `scheduler.check_interval` is 60, `automation.enabled` is true and `automation.log_level` is `"INFO"`, whatever the default argument |
| `ConfigDefaults.DefaultValues` | src/ness_automation/config.py:42-56 | the same three values, read with the literal dotted keys |
| `Automation.NewManager` | src/ness_automation/automation_manager.py:17-30 | the registry is empty, and the scheduler has no entries and is not running. Its poll interval is `scheduler.check_interval` from the configuration, or 60 when that key is missing or `None` |
| `Automation.DefaultPollInterval` | src/ness_automation/automation_manager.py:26-28 | both under the default configuration and with the key absent, the scheduler polls every 60 seconds |
| `Automation.CreateTask` | src/ness_automation/automation_manager.py:61-64 | `name` is bound to a fresh pending task and other names keep their tasks. Earlier task records stay in the heap unchanged. A new name is appended to the listing order; a re-created one keeps its place. The scheduler is untouched |
| `Automation.ExecuteTask` | src/ness_automation/automation_manager.py:79-83 | an unknown name raises `KeyError` and changes nothing. Otherwise the registered task is executed: its value is returned and the task completed, or the failure is re-raised and the task failed. No other task, name or entry changes |
| `Automation.ScheduleTask` | src/ness_automation/automation_manager.py:104-108 | an unknown name raises `KeyError` and changes nothing. Otherwise one entry referring to the registered task is appended and `None` is returned |
| `Automation.GetTaskStatus` | src/ness_automation/automation_manager.py:123-126 | the registered task's status, or `KeyError` exactly when the name is unknown |
| `Automation.ListTasks` | src/ness_automation/automation_manager.py:135 | exactly the registered names, each once |
| `Automation.StopScheduler` | src/ness_automation/automation_manager.py:142-145 | the scheduler's run flag is cleared; nothing else changes, so the registry invariant is kept |
| `Automation.CreatedTaskIsPending` | src/ness_automation/automation_manager.py:61-64 | a task just created reports pending and is listed |
| `Automation.StatusAfterExecute` | src/ness_automation/automation_manager.py:79-83 | after executing a registered name, its status reads completed when the work returned and failed when it raised |
| `Automation.RecreateOrphansEntries` | src/ness_automation/automation_manager.py:62 | re-creating a name binds it to a new record. Entries scheduled earlier keep the old record, which executing the name no longer touches |
| `Automation.ExecuteLeavesPending` | src/ness_automation/automation_manager.py:79-83 | executing a task drops every entry of that task from the scheduler's pending list. Entries of other tasks keep their pending status |
| `Automation.CreateAndExecute` | src/ness_automation/automation_manager.py:61-83 | on the default configuration, a created task executed with work returning 8 returns 8 and reports completed. Executing an unknown name raises `KeyError` and changes nothing |
| `Automation.ScheduleInPastRunsOnce` | src/ness_automation/automation_manager.py:104-108 | on a manager with nothing scheduled, a task scheduled once in the past runs on the next pass to completion, and its entry is removed |

## Left out

- `Scheduler.run` and `AutomationManager.start_scheduler` are left out. They block: they loop on the run flag and sleep on the wall clock. `stop` is modelled as clearing the flag.
- Logging is not modelled. This includes `_setup_logging`, where `getattr(logging, level)` can raise on an unknown level name; the model's constructor never fails.
- YAML handling is not modelled: loading and saving the configuration file and resolving the default path. The constructor receives the loaded configuration as a value, and `ConfigDefaults.DefaultConfig` is what is used when no file exists.
- The wrapped callable and its `args`/`kwargs` are replaced by the `Run` oracle. Its message stands for `str(e)`, which may be empty.
- Wall-clock reads become parameters. The clock is assumed never to go back, and bookkeeping between two reads takes no time, so `last_run` equals the task's `completed_at` of that run.
- Timestamps and durations are whole seconds. `get_duration` returns a float in Python.
- `Config.Set`: nested mappings are values. When one dict is stored under two keys (by `set` or by YAML anchors and aliases), Python's `set` through one key also changes the other. `Config.SetPathFrame` and `Config.SetLeavesOtherKeys` hold only without such sharing.
- Configuration lists, floats and other YAML scalars are not modelled. Only `None`, booleans, integers, strings and mappings are; any non-mapping blocks `set` and stops `get` alike.
- Exceptions outside `Exception` (such as `KeyboardInterrupt` inside the work) are not modelled. They would leave a task `Running`. The `Running` status exists in the model, and `should_run` honours it.
- Task status is an enumeration rather than the strings `"pending"` and so on.
- `Automation.ScheduleTask`: the `ScheduledTask` object that `Scheduler.schedule_task` returns is not handed back by the manager either. The scheduler-level `Scheduling.ScheduleTask` returns it.
- Entries are values, not objects. `list.remove` compares with `==`, which for `ScheduledTask` (it defines no `__eq__`) is identity. No entry object is in the list twice, so `remove` deletes the entry at the current index. The entry `Scheduler.schedule_task` returns is a snapshot here, so the `last_run` that `run_once` sets on it (even on a one-shot it then removes) is not visible through it.
- When the work raises, `run_once` neither sets `last_run` nor removes the entry, so a failing one-shot stays due (`Polling.FailingOneShotIsRetried`).
- `last_run` is a fresh clock reading taken after the work finished.
- Nothing is enforced about a repeating entry's interval: zero, negative or missing are accepted, and zero and missing both mean no interval.
- Times are unbounded integers. Python's datetime range is not modelled, nor the `OverflowError` that `is_due` then raises, which escapes `run_once` because `should_run` is called outside its `try`.

## Findings

| source | as written | input that shows it | evidently intended | confidence | as-written member | corrected member |
|---|---|---|---|---|---|---|
| src/ness_automation/scheduler.py:94-101 | `run_once` removes a finished one-shot entry from `self.scheduled_tasks` while iterating over that same list, so the iterator passes over the entry that moves into the removed one's place | two one-shot entries, both due, whose work succeeds: the first is run and removed; the second is never examined in that pass although it is due | each pass examines every entry that was scheduled when it started, and runs every one of them that is due ("Check and run any due tasks once"), e.g. by iterating over a copy of the list | not executed | `Polling.RunOnceSkipsEntryAfterRemoval` | `Polling.RunOnceSnapshot` |

=== FILE: config.dfy ===
/** The dictionary behind `Config`: dotted-key `get` with a default, dotted-key
    `set` that creates missing intermediate dictionaries, and the built-in
    default configuration. Loading and saving YAML files is not modelled; a
    configuration is the dictionary they would produce. */
module Config {
  import opened Wrappers
  import opened Values
  import opened DottedKeys

  /** The top-level configuration dictionary. */
  type Settings = map<string, Value>

  /** The error `set` raises (a Python `TypeError`) when the path runs into an
      existing value that is not a dictionary; `key` is the segment naming it. */
  datatype ConfigError = NotAMapping(key: string)

  /** Plain path lookup, independent of `get`'s loop: the value stored under
      `path`, or `None` if a segment is missing or a value on the way is not a
      dictionary. */
  function At(v: Value, path: seq<string>): Option<Value>
    decreases |path|
  {
    if path == [] then Some(v)
    else match v
      case Dict(d) => if path[0] in d then At(d[path[0]], path[1..]) else None
      case _ => None
  }

  /** What `get` reports for a lookup result: the value, unless it is absent
      or `None`, in which case the default. */
  function OrDefault(found: Option<Value>, default: Value): Value {
    if found.Some? && found.value != Nil then found.value else default
  }

  /** The loop of `get` over the split key: step into dictionaries, give up
      with the default on a non-dictionary or on a `None`/missing value. It
      answers `None` for a non-empty key only when the default is `None`;
      `WalkIsLookup` says which value it finds. */
  function Walk(v: Value, keys: seq<string>, default: Value): (r: Value)
    ensures keys != [] && r == Nil ==> default == Nil
    decreases |keys|
  {
    if keys == [] then v
    else match v
      case Dict(d) =>
        var w := if keys[0] in d then d[keys[0]] else Nil;
        if w == Nil then default else Walk(w, keys[1..], default)
      case _ => default
  }

  /** `get`'s loop agrees with the plain lookup on every non-empty key list. */
  lemma {:induction false} WalkIsLookup(v: Value, keys: seq<string>, default: Value)
    requires |keys| >= 1
    ensures Walk(v, keys, default) == OrDefault(At(v, keys), default)
    decreases |keys|
  {
    match v
    case Dict(d) =>
      if keys[0] in d && d[keys[0]] != Nil && |keys| > 1 {
        WalkIsLookup(d[keys[0]], keys[1..], default);
      }
    case _ =>
  }

  /** `Config.get(key, default)`: the value under the dotted key, or `default`
      when a segment is missing, a value on the way is not a dictionary, or the
      value found is `None`. Falsy values such as `False` are returned as they
      are. */
  function Get(c: Settings, key: string, default: Value): (r: Value)
    ensures r == OrDefault(At(Dict(c), Split(key)), default)
  {
    WalkIsLookup(Dict(c), Split(key), default);
    Walk(Dict(c), Split(key), default)
  }

  /** The loop of `set` over the split key: create `{}` under a missing
      segment, step into the value under each segment but the last, and
      store the value under the last one. At the top level only the first
      segment's entry is added or replaced, and the store under the last
      segment itself never fails; the `SetPath` lemmas below say the rest. */
  function SetPath(d: Settings, path: seq<string>, value: Value): (r: Result<Settings, ConfigError>)
    requires |path| >= 1
    ensures r.Success? ==> r.value.Keys == d.Keys + {path[0]} && (forall k :: k in d && k != path[0] ==> r.value[k] == d[k])
    ensures |path| == 1 ==> r.Success?
    decreases |path|
  {
    if |path| == 1 then Success(d[path[0] := value])
    else
      var child := if path[0] in d then d[path[0]] else Dict(map[]);
      match child
      case Dict(inner) =>
        (match SetPath(inner, path[1..], value)
         case Success(inner') => Success(d[path[0] := Dict(inner')])
         case Failure(e) => Failure(e))
      case _ => Failure(NotAMapping(path[0]))
  }

  /** Some proper prefix of `path` leads to an existing value that is not a
      dictionary, so `set` cannot step through it. */
  predicate Blocked(d: Settings, path: seq<string>) {
    exists j :: 1 <= j < |path| && At(Dict(d), path[..j]).Some? && !At(Dict(d), path[..j]).value.Dict?
  }

  /** Looking up a non-empty prefix of `path` starts with `path`'s first segment. */
  lemma AtPrefix(d: Settings, path: seq<string>, j: nat)
    requires 1 <= j <= |path|
    ensures At(Dict(d), path[..j]) == if path[0] in d then At(d[path[0]], path[1..][..j - 1]) else None
  {
    assert path[..j][0] == path[0];
    assert path[..j][1..] == path[1..][..j - 1];
  }

  /** `set` succeeds exactly when the path is not blocked. */
  lemma {:induction false} SetPathSucceeds(d: Settings, path: seq<string>, value: Value)
    requires |path| >= 1
    ensures SetPath(d, path, value).Success? <==> !Blocked(d, path)
    decreases |path|
  {
    if |path| > 1 {
      var k := path[0];
      var rest := path[1..];
      if k in d && !d[k].Dict? {
        AtPrefix(d, path, 1);
        assert At(Dict(d), path[..1]) == Some(d[k]);
      } else if k in d {
        var inner := d[k].d;
        SetPathSucceeds(inner, rest, value);
        if Blocked(d, path) {
          var j :| 1 <= j < |path| && At(Dict(d), path[..j]).Some? && !At(Dict(d), path[..j]).value.Dict?;
          AtPrefix(d, path, j);
          AtPrefix(inner, rest, j - 1);
          assert rest[..j - 1] == path[1..][..j - 1];
          assert Blocked(inner, rest);
        }
        if Blocked(inner, rest) {
          var j :| 1 <= j < |rest| && At(Dict(inner), rest[..j]).Some? && !At(Dict(inner), rest[..j]).value.Dict?;
          AtPrefix(d, path, j + 1);
          AtPrefix(inner, rest, j);
          assert At(Dict(d), path[..j + 1]) == At(Dict(inner), rest[..j]);
          assert Blocked(d, path);
        }
      } else {
        SetPathSucceeds(map[], rest, value);
        if Blocked(d, path) {
          var j :| 1 <= j < |path| && At(Dict(d), path[..j]).Some? && !At(Dict(d), path[..j]).value.Dict?;
          AtPrefix(d, path, j);
          assert false;
        }
        if Blocked(map[], rest) {
          var j :| 1 <= j < |rest| && At(Dict(map[]), rest[..j]).Some? && !At(Dict(map[]), rest[..j]).value.Dict?;
          AtPrefix(map[], rest, j);
          assert false;
        }
      }
    }
  }

  /** After a successful `set`, the path leads to the value written. */
  lemma {:induction false} SetPathStores(d: Settings, path: seq<string>, value: Value)
    requires |path| >= 1
    requires SetPath(d, path, value).Success?
    ensures At(Dict(SetPath(d, path, value).value), path) == Some(value)
    decreases |path|
  {
    if |path| > 1 {
      var child := if path[0] in d then d[path[0]] else Dict(map[]);
      SetPathStores(child.d, path[1..], value);
    }
  }

  /** After a successful `set`, every proper prefix of the path leads to a
      dictionary: the missing intermediate dictionaries have been created. */
  lemma {:induction false} SetPathCreatesIntermediates(d: Settings, path: seq<string>, value: Value, j: nat)
    requires 1 <= j < |path|
    requires SetPath(d, path, value).Success?
    ensures At(Dict(SetPath(d, path, value).value), path[..j]).Some?
    ensures At(Dict(SetPath(d, path, value).value), path[..j]).value.Dict?
    decreases |path|
  {
    var d' := SetPath(d, path, value).value;
    var child := if path[0] in d then d[path[0]] else Dict(map[]);
    var inner' := SetPath(child.d, path[1..], value).value;
    assert d' == d[path[0] := Dict(inner')];
    AtPrefix(d', path, j);
    if j > 1 {
      SetPathCreatesIntermediates(child.d, path[1..], value, j - 1);
    }
  }

  /** A successful `set` leaves every path that neither lies on the written
      path nor extends it exactly as it was. */
  lemma {:induction false} SetPathFrame(d: Settings, path: seq<string>, value: Value, q: seq<string>)
    requires |path| >= 1
    requires SetPath(d, path, value).Success?
    requires !(q <= path) && !(path <= q)
    ensures At(Dict(SetPath(d, path, value).value), q) == At(Dict(d), q)
    decreases |path|
  {
    var d' := SetPath(d, path, value).value;
    assert q != [];
    if q[0] == path[0] {
      var child := if path[0] in d then d[path[0]] else Dict(map[]);
      var inner := child.d;
      assert d' == d[path[0] := Dict(SetPath(inner, path[1..], value).value)];
      assert path == [path[0]] + path[1..];
      assert q == [q[0]] + q[1..];
      SetPathFrame(inner, path[1..], value, q[1..]);
    }
  }

  /** `Config.set(key, value)`: on success the new dictionary, in which the key
      now leads to `value` and every key off the written path is unchanged; it
      fails, changing nothing, exactly when a prefix of the key names an
      existing value that is not a dictionary. */
  function Set(c: Settings, key: string, value: Value): (r: Result<Settings, ConfigError>)
    ensures r.Success? <==> !Blocked(c, Split(key))
    ensures r.Success? ==> At(Dict(r.value), Split(key)) == Some(value)
    ensures r.Success? ==> forall q :: !(q <= Split(key)) && !(Split(key) <= q) ==> At(Dict(r.value), q) == At(Dict(c), q)
  {
    var path := Split(key);
    SetPathSucceeds(c, path, value);
    if SetPath(c, path, value).Success? then
      SetPathStores(c, path, value);
      assert forall q :: !(q <= path) && !(path <= q) ==> At(Dict(SetPath(c, path, value).value), q) == At(Dict(c), q) by {
        forall q | !(q <= path) && !(path <= q)
          ensures At(Dict(SetPath(c, path, value).value), q) == At(Dict(c), q)
        {
          SetPathFrame(c, path, value, q);
        }
      }
      SetPath(c, path, value)
    else
      SetPath(c, path, value)
  }

  /** `set` then `get` on the same key returns the value set (or the default,
      if the value set is `None`). */
  lemma GetAfterSet(c: Settings, key: string, value: Value, default: Value)
    requires Set(c, key, value).Success?
    ensures Get(Set(c, key, value).value, key, default) == if value == Nil then default else value
  {
  }

  /** `set` leaves `get` unchanged on every key whose segments neither lie on
      nor extend the written key's segments. */
  lemma SetLeavesOtherKeys(c: Settings, key: string, value: Value, other: string, default: Value)
    requires Set(c, key, value).Success?
    requires !(Split(other) <= Split(key)) && !(Split(key) <= Split(other))
    ensures Get(Set(c, key, value).value, other, default) == Get(c, other, default)
  {
  }

  /** The segments of a two-part dotted key. */
  lemma SplitTwo(a: string, b: string)
    requires IsSegment(a) && IsSegment(b)
    ensures Split(a + "." + b) == [a, b]
  {
    SplitJoin([a, b]);
    assert Join([a, b]) == a + "." + Join([b]);
  }
}

=== FILE: config_defaults.dfy ===
/** The built-in default configuration `Config` falls back to when no
    configuration file exists, and the values it documents. */
module ConfigDefaults {
  import opened Wrappers
  import opened Values
  import opened DottedKeys
  import opened Config

  /** The documented keys. Each is written as its segments joined by a dot:
      the same string as the dotted literal, in a form whose segments the
      verifier can read off without unfolding the literal character by
      character. */
  const CheckIntervalKey: string := "scheduler" + "." + "check_interval"
  const EnabledKey: string := "automation" + "." + "enabled"
  const LogLevelKey: string := "automation" + "." + "log_level"

  /** The configuration used when no configuration file exists: sections
      `automation`, `scheduler` and `tasks`, with automation enabled at log
      level `INFO` and three retries, a 60-second scheduler poll, and a
      300-second default task timeout. */
  function DefaultConfig(): (c: Settings)
    ensures c.Keys == {"automation", "scheduler", "tasks"}
    ensures c["automation"].Dict? && c["automation"].d.Keys == {"enabled", "log_level", "max_retries"}
    ensures c["scheduler"].Dict? && c["scheduler"].d.Keys == {"check_interval"}
    ensures c["tasks"].Dict? && c["tasks"].d.Keys == {"default_timeout"}
    ensures At(Dict(c), ["automation", "enabled"]) == Some(Bool(true))
    ensures At(Dict(c), ["automation", "log_level"]) == Some(Str("INFO"))
    ensures At(Dict(c), ["automation", "max_retries"]) == Some(Int(3))
    ensures At(Dict(c), ["scheduler", "check_interval"]) == Some(Int(60))
    ensures At(Dict(c), ["tasks", "default_timeout"]) == Some(Int(300))
  {
    map[
      "automation" := Dict(map["enabled" := Bool(true), "log_level" := Str("INFO"), "max_retries" := Int(3)]),
      "scheduler" := Dict(map["check_interval" := Int(60)]),
      "tasks" := Dict(map["default_timeout" := Int(300)])
    ]
  }

  /** The segments of the documented keys. */
  lemma DefaultKeySegments()
    ensures Split(CheckIntervalKey) == ["scheduler", "check_interval"]
    ensures Split(EnabledKey) == ["automation", "enabled"]
    ensures Split(LogLevelKey) == ["automation", "log_level"]
  {
    SplitTwo("scheduler", "check_interval");
    SplitTwo("automation", "enabled");
    SplitTwo("automation", "log_level");
  }

  /** In the default configuration, the keys `scheduler.check_interval`,
      `automation.enabled` and `automation.log_level` (given by their
      segments) hold 60, true and `"INFO"`, whatever the default passed. */
  lemma DefaultLookups(key: string, default: Value)
    ensures Split(key) == ["scheduler", "check_interval"] ==> Get(DefaultConfig(), key, default) == Int(60)
    ensures Split(key) == ["automation", "enabled"] ==> Get(DefaultConfig(), key, default) == Bool(true)
    ensures Split(key) == ["automation", "log_level"] ==> Get(DefaultConfig(), key, default) == Str("INFO")
  {
    var c := Dict(DefaultConfig());
    assert At(c, ["scheduler", "check_interval"]) == Some(Int(60));
    assert At(c, ["automation", "enabled"]) == Some(Bool(true));
    assert At(c, ["automation", "log_level"]) == Some(Str("INFO"));
  }

  /** The default configuration's documented values, read with `get(key)`. */
  lemma DefaultValues()
    ensures Get(DefaultConfig(), CheckIntervalKey, Nil) == Int(60)
    ensures Get(DefaultConfig(), EnabledKey, Nil) == Bool(true)
    ensures Get(DefaultConfig(), LogLevelKey, Nil) == Str("INFO")
  {
    DefaultKeySegments();
    DefaultLookups(CheckIntervalKey, Nil);
    DefaultLookups(EnabledKey, Nil);
    DefaultLookups(LogLevelKey, Nil);
  }
}

=== FILE: dotted_keys.dfy ===
/** Dotted configuration keys such as `"scheduler.check_interval"`: Python's
    `key.split('.')` and its inverse, joining segments with dots. */
module DottedKeys {

  /** A single key segment: it contains no dot. */
  predicate IsSegment(s: string) {
    forall j :: 0 <= j < |s| ==> s[j] != '.'
  }

  /** `s.split('.')`: the maximal dot-free runs of `s`, one more than there
      are dots, including empty runs (`"a..b"` gives `["a", "", "b"]`). */
  function Split(s: string): (r: seq<string>)
    ensures forall j :: 0 <= j < |r| ==> IsSegment(r[j])
    decreases |s|
  {
    if s == [] then [""]
    else
      assert s == [s[0]] + s[1..];
      var rest := Split(s[1..]);
      if s[0] == '.' then [""] + rest
      else [[s[0]] + rest[0]] + rest[1..]
  }

  /** A key has one more segment than it has dots. */
  lemma {:induction false} SplitCount(s: string)
    ensures |Split(s)| == multiset(s)['.'] + 1
    decreases |s|
  {
    if s != [] {
      SplitCount(s[1..]);
      assert s == [s[0]] + s[1..];
    }
  }

  /** `'.'.join(parts)`. */
  function Join(parts: seq<string>): string
    requires |parts| >= 1
    decreases |parts|
  {
    if |parts| == 1 then parts[0] else parts[0] + "." + Join(parts[1..])
  }

  /** Joining the segments of a key gives back the key. */
  lemma {:induction false} JoinSplit(s: string)
    ensures Join(Split(s)) == s
    decreases |s|
  {
    if s != [] {
      var rest := Split(s[1..]);
      JoinSplit(s[1..]);
      if s[0] == '.' {
        assert Split(s) == [""] + rest;
        assert ([""] + rest)[1..] == rest;
      } else {
        var r := Split(s);
        assert r == [[s[0]] + rest[0]] + rest[1..];
        if |rest| == 1 {
          assert Join(r) == [s[0]] + rest[0];
        } else {
          assert r[1..] == rest[1..];
          assert Join(rest) == rest[0] + "." + Join(rest[1..]);
          assert Join(r) == ([s[0]] + rest[0]) + "." + Join(rest[1..]);
        }
      }
    }
  }

  /** A string without dots splits into itself alone. */
  lemma {:induction false} SplitSegment(p: string)
    requires IsSegment(p)
    ensures Split(p) == [p]
    decreases |p|
  {
    if p != [] {
      SplitSegment(p[1..]);
      assert [p[0]] + p[1..] == p;
    }
  }

  /** Splitting `p + "." + x`, for a segment `p`, yields `p` and then the
      segments of `x`. */
  lemma {:induction false} SplitAfterSegment(p: string, x: string)
    requires IsSegment(p)
    ensures Split(p + "." + x) == [p] + Split(x)
    decreases |p|
  {
    var s := p + "." + x;
    if p == [] {
      assert s == "." + x;
      assert s[1..] == x;
    } else {
      assert s[1..] == p[1..] + "." + x;
      SplitAfterSegment(p[1..], x);
      assert [p[0]] + p[1..] == p;
    }
  }

  /** Splitting a join of segments gives back the segments. */
  lemma {:induction false} SplitJoin(parts: seq<string>)
    requires |parts| >= 1
    requires forall j :: 0 <= j < |parts| ==> IsSegment(parts[j])
    ensures Split(Join(parts)) == parts
    decreases |parts|
  {
    if |parts| == 1 {
      SplitSegment(parts[0]);
    } else {
      SplitJoin(parts[1..]);
      SplitAfterSegment(parts[0], Join(parts[1..]));
      assert [parts[0]] + parts[1..] == parts;
    }
  }
}

=== FILE: manager.dfy ===
/** `AutomationManager`: a registry of tasks by name in front of a scheduler.
    The registry and the scheduler's entries refer to the same task records,
    so tasks live in a heap indexed by `TaskId`; re-creating a name makes a
    fresh record and leaves earlier entries pointing at the old one. */
module Automation {
  import opened Wrappers
  import opened Values
  import opened Sequences
  import opened Tasks
  import opened Scheduling
  import opened DottedKeys
  import opened Config
  import opened ConfigDefaults
  import opened Polling

  /** The `KeyError`s the manager raises, and a task failure re-raised from
      `Task.execute()`. */
  datatype ManagerError = NotFound(name: string) | TaskFailed(message: string)

  /** A manager: its configuration, its scheduler, the task names in
      insertion order (the key order of `self.tasks`), the name-to-task
      registry, the task heap and the next unused task id. */
  datatype Manager = Manager(config: Settings, scheduler: Scheduler, names: seq<string>, tasks: map<string, TaskId>, heap: Heap, nextId: TaskId)

  /** What a manager call leaves behind and what it returns or raises. */
  datatype Reply = Reply(manager: Manager, answer: Result<Value, ManagerError>)

  /** The manager's representation invariant: each name listed once and
      exactly the registered ones, every registered task and every
      scheduled entry in the heap, and no heap id at or above `nextId`. */
  ghost predicate Valid(m: Manager) {
    Distinct(m.names)
    && (forall n :: n in m.names <==> n in m.tasks)
    && (forall n :: n in m.tasks ==> m.tasks[n] in m.heap)
    && Refers(m.scheduler.entries, m.heap)
    && (forall id :: id in m.heap ==> id < m.nextId)
  }

  /** `AutomationManager(config_path)` over the loaded configuration `cfg`:
      the scheduler polls at `scheduler.check_interval`, 60 when that key is
      missing or `None`; no tasks are registered. */
  function NewManager(cfg: Settings): (m: Manager)
    ensures Valid(m)
    ensures m.config == cfg && m.names == [] && m.tasks == map[] && m.heap == map[]
    ensures m.scheduler.entries == [] && !m.scheduler.running
    ensures m.scheduler.checkInterval == OrDefault(At(Dict(cfg), ["scheduler", "check_interval"]), Int(60))
  {
    DefaultKeySegments();
    IntervalLookup(cfg, CheckIntervalKey);
    Manager(cfg, NewScheduler(Get(cfg, CheckIntervalKey, Int(60))), [], map[], map[], 0)
  }

  /** Reading a key whose segments are `scheduler` and `check_interval`. */
  lemma IntervalLookup(cfg: Settings, key: string)
    ensures Split(key) == ["scheduler", "check_interval"] ==>
      Get(cfg, key, Int(60)) == OrDefault(At(Dict(cfg), ["scheduler", "check_interval"]), Int(60))
  {
  }

  /** Appending a name not yet listed keeps the names distinct. */
  lemma AppendDistinct(names: seq<string>, name: string)
    requires Distinct(names)
    ensures name !in names ==> Distinct(names + [name])
  {
    if name !in names {
      AppendDistinctFresh(names, name);
    }
  }

  lemma AppendDistinctFresh(names: seq<string>, name: string)
    requires Distinct(names) && name !in names
    ensures Distinct(names + [name])
  {
    var s := names + [name];
    forall i, j | 0 <= i < j < |s|
      ensures s[i] != s[j]
    {
      if j == |names| {
        assert s[i] == names[i];
      } else {
        assert s[i] == names[i] && s[j] == names[j];
      }
    }
  }

  /** `create_task(name, ...)` at clock time `now`: a fresh pending task is
      registered under `name`, replacing any earlier task of that name in the
      registry but not in the heap; a new name goes to the end of the list,
      a known one keeps its place. */
  function CreateTask(m: Manager, name: string, description: string, now: int): (r: Manager)
    requires Valid(m)
    ensures Valid(r)
    ensures name in r.tasks && r.tasks[name] !in m.heap
    ensures r.heap[r.tasks[name]] == NewTask(name, description, now)
    ensures r.tasks.Keys == m.tasks.Keys + {name}
    ensures forall n :: n in m.tasks && n != name ==> r.tasks[n] == m.tasks[n]
    ensures forall id :: id in m.heap ==> id in r.heap && r.heap[id] == m.heap[id]
    ensures r.names == if name in m.tasks then m.names else m.names + [name]
    ensures r.scheduler == m.scheduler && r.config == m.config
  {
    AppendDistinct(m.names, name);
    var id := m.nextId;
    m.(names := if name in m.tasks then m.names else m.names + [name],
       tasks := m.tasks[name := id],
       heap := m.heap[id := NewTask(name, description, now)],
       nextId := id + 1)
  }

  /** `execute_task(name)` at clock time `now`: an unknown name raises
      `KeyError` and changes nothing; otherwise the registered task runs,
      and its value is returned or its failure re-raised, the task being
      `Completed` or `Failed` accordingly. No other task changes. */
  function ExecuteTask(m: Manager, name: string, run: Run, now: int): (r: Reply)
    requires Valid(m)
    ensures Valid(r.manager)
    ensures name !in m.tasks ==> r == Reply(m, Failure(NotFound(name)))
    ensures name in m.tasks ==>
      var id := m.tasks[name];
      && r.manager.heap.Keys == m.heap.Keys
      && r.manager.heap[id] == Execute(m.heap[id], run, now).task
      && (forall other :: other in m.heap && other != id ==> r.manager.heap[other] == m.heap[other])
      && r.manager == m.(heap := r.manager.heap)
      && (run.outcome.Returns? ==> r.answer == Success(run.outcome.value) && r.manager.heap[id].status == Completed)
      && (run.outcome.Raises? ==> r.answer == Failure(TaskFailed(run.outcome.message)) && r.manager.heap[id].status == Failed)
  {
    if name !in m.tasks then Reply(m, Failure(NotFound(name)))
    else
      var id := m.tasks[name];
      var x := Execute(m.heap[id], run, now);
      var m' := m.(heap := m.heap[id := x.task]);
      match x.outcome
      case Returns(v) => Reply(m', Success(v))
      case Raises(msg) => Reply(m', Failure(TaskFailed(msg)))
  }

  /** `schedule_task(name, ...)` at clock time `now`: an unknown name raises
      `KeyError` and changes nothing; otherwise one entry for the registered
      task is appended to the scheduler and `None` is returned. */
  function ScheduleTask(m: Manager, name: string, scheduleTime: Option<int>, interval: Option<int>, repeat: bool, now: int): (r: Reply)
    requires Valid(m)
    ensures Valid(r.manager)
    ensures name !in m.tasks ==> r == Reply(m, Failure(NotFound(name)))
    ensures name in m.tasks ==>
      && r.answer == Success(Nil)
      && r.manager == m.(scheduler := r.manager.scheduler)
      && r.manager.scheduler.entries == m.scheduler.entries + [NewEntry(m.tasks[name], scheduleTime, interval, repeat, now)]
      && r.manager.scheduler.checkInterval == m.scheduler.checkInterval
      && r.manager.scheduler.running == m.scheduler.running
  {
    if name !in m.tasks then Reply(m, Failure(NotFound(name)))
    else
      var added := Scheduling.ScheduleTask(m.scheduler, m.tasks[name], scheduleTime, interval, repeat, now);
      Reply(m.(scheduler := added.0), Success(Nil))
  }

  /** `get_task_status(name)`: the status of the registered task, or
      `KeyError` for an unknown name. */
  function GetTaskStatus(m: Manager, name: string): (r: Result<Status, ManagerError>)
    requires Valid(m)
    ensures r.Success? <==> name in m.tasks
    ensures r.Success? ==> r.value == m.heap[m.tasks[name]].status
    ensures r.Failure? ==> r.error == NotFound(name)
  {
    if name !in m.tasks then Failure(NotFound(name)) else Success(m.heap[m.tasks[name]].status)
  }

  /** `list_tasks()`: every registered name, once each, in insertion order. */
  function ListTasks(m: Manager): (r: seq<string>)
    requires Valid(m)
    ensures Distinct(r)
    ensures forall n :: n in r <==> n in m.tasks
  {
    m.names
  }

  /** `stop_scheduler()`: clears the scheduler's run flag and nothing else. */
  function StopScheduler(m: Manager): (r: Manager)
    ensures Valid(m) ==> Valid(r)
    ensures !r.scheduler.running
    ensures r == m.(scheduler := r.scheduler)
    ensures r.scheduler.entries == m.scheduler.entries && r.scheduler.checkInterval == m.scheduler.checkInterval
  {
    m.(scheduler := Stop(m.scheduler))
  }

  /** With the default configuration, and with a configuration lacking the
      key, the scheduler polls every 60 seconds. */
  lemma DefaultPollInterval()
    ensures NewManager(DefaultConfig()).scheduler.checkInterval == Int(60)
    ensures NewManager(map[]).scheduler.checkInterval == Int(60)
  {
    var c := Dict(DefaultConfig());
    assert At(c, ["scheduler", "check_interval"]) == Some(Int(60));
    assert At(Dict(map[]), ["scheduler", "check_interval"]) == None;
  }

  /** A task just created is pending and listed. */
  lemma CreatedTaskIsPending(m: Manager, name: string, description: string, now: int)
    requires Valid(m)
    ensures var r := CreateTask(m, name, description, now);
            GetTaskStatus(r, name) == Success(Pending) && name in ListTasks(r)
  {
  }

  /** `get_task_status` after `execute_task` on a registered name reports
      `Completed` when the work returned and `Failed` when it raised. */
  lemma StatusAfterExecute(m: Manager, name: string, run: Run, now: int)
    requires Valid(m) && name in m.tasks
    ensures var r := ExecuteTask(m, name, run, now).manager;
            GetTaskStatus(r, name) == Success(if run.outcome.Returns? then Completed else Failed)
  {
  }

  /** Re-creating a name detaches it from what was scheduled before: the old
      entries keep referring to the old task record, which executing the
      name no longer touches. */
  lemma RecreateOrphansEntries(m: Manager, name: string, description: string, now: int, run: Run, later: int)
    requires Valid(m) && name in m.tasks
    ensures var old_id := m.tasks[name];
            var r := CreateTask(m, name, description, now);
            var x := ExecuteTask(r, name, run, later);
            r.tasks[name] != old_id
              && (forall e :: e in r.scheduler.entries && e.task == old_id ==> x.manager.heap[e.task] == m.heap[old_id])
  {
  }

  /** Executing a registered task takes every entry of that task off the
      scheduler's pending list, and leaves the pending status of entries of
      other tasks as it was. */
  lemma ExecuteLeavesPending(m: Manager, name: string, run: Run, now: int)
    requires Valid(m) && name in m.tasks
    ensures var r := ExecuteTask(m, name, run, now).manager;
            && (forall e :: e in PendingTasks(r.scheduler, r.heap) ==> e.task != m.tasks[name])
            && (forall e :: e in m.scheduler.entries && e.task != m.tasks[name] ==>
                  (e in PendingTasks(r.scheduler, r.heap) <==> e in PendingTasks(m.scheduler, m.heap)))
  {
  }

  /** A manager on the default configuration: creating `t` and executing
      it with work returning 8 returns 8 and completes the task; executing
      an unknown name raises `KeyError`. */
  lemma CreateAndExecute(now: int)
    ensures var m := CreateTask(NewManager(DefaultConfig()), "t", "", now);
            var r := ExecuteTask(m, "t", Run(Returns(Int(8)), 2), now);
            && r.answer == Success(Int(8))
            && GetTaskStatus(r.manager, "t") == Success(Completed)
            && ExecuteTask(m, "missing", Run(Returns(Int(8)), 2), now) == Reply(m, Failure(NotFound("missing")))
  {
    var m := CreateTask(NewManager(DefaultConfig()), "t", "", now);
    assert "missing" !in m.tasks;
  }

  /** On a manager with nothing scheduled, a task scheduled once in the past
      runs on the next pass and its entry is removed. */
  lemma ScheduleInPastRunsOnce(m: Manager, name: string, now: int, duration: nat)
    requires Valid(m) && m.scheduler.entries == []
    ensures var c := CreateTask(m, name, "", now);
            var r := ScheduleTask(c, name, Some(now - 10), None, false, now).manager;
            var p := RunOnce(r.scheduler, r.heap, now, (k: nat) => Run(Returns(Nil), duration));
            p.scheduler.entries == [] && p.heap[c.tasks[name]].status == Completed
  {
    var c := CreateTask(m, name, "", now);
    var r := ScheduleTask(c, name, Some(now - 10), None, false, now).manager;
    var e := NewEntry(c.tasks[name], Some(now - 10), None, false, now);
    assert r.scheduler.entries == [e];
    assert ShouldRun(e, r.heap, now);
    SucceedingOneShotLeaves(r.scheduler, r.heap, now, (k: nat) => Run(Returns(Nil), duration));
  }
}

=== FILE: polling.dfy ===
/** `Scheduler.run_once()`: one pass over the scheduled entries, executing the
    due ones. The Python loop removes a finished one-shot entry from the very
    list it is iterating, so the list iterator's index moves past the entry
    that slid into the removed one's place: that entry is not looked at in
    this pass. `RunOnce` models the loop literally; `Sweep` describes the same
    pass over the original list; `RunOnceSnapshot` is the pass that iterates
    over a copy and so looks at every entry. Work outcomes come from an oracle
    indexed by how many executions the pass has performed. */
module Polling {
  import opened Wrappers
  import opened Sequences
  import opened Tasks
  import opened Scheduling

  /** What examining one entry did: the entry as it stays in the list (`None`
      if removed), the heap and clock afterwards, and whether its task ran. */
  datatype Visited = Visited(kept: Option<Entry>, heap: Heap, clock: int, ran: bool)

  /** The body of the `run_once` loop for one entry at clock time `clock`.
      A due entry whose task succeeds gets `last_run` (read after the work
      finished) and is removed iff it does not repeat; when the task raises,
      the error is swallowed and the entry is left exactly as it was. */
  function Visit(e: Entry, heap: Heap, clock: int, run: Run): (v: Visited)
    requires e.task in heap
    ensures v.heap.Keys == heap.Keys
    ensures v.ran == ShouldRun(e, heap, clock)
    ensures !v.ran ==> v.kept == Some(e) && v.heap == heap && v.clock == clock
    ensures v.ran ==> v.clock == clock + run.duration
    ensures v.ran ==> v.heap == heap[e.task := Execute(heap[e.task], run, clock).task]
    ensures v.ran && run.outcome.Raises? ==> v.kept == Some(e)
    ensures v.ran && run.outcome.Returns? && e.repeat ==> v.kept == Some(e.(lastRun := Some(v.clock)))
    ensures v.ran && run.outcome.Returns? && !e.repeat ==> v.kept == None
    ensures v.kept.Some? ==> v.kept.value.(lastRun := None) == e.(lastRun := None)
    ensures v.kept.None? ==> v.ran && !e.repeat
  {
    if !ShouldRun(e, heap, clock) then Visited(Some(e), heap, clock, false)
    else
      var x := Execute(heap[e.task], run, clock);
      var heap' := heap[e.task := x.task];
      var finished := clock + run.duration;
      match x.outcome
      case Raises(_) => Visited(Some(e), heap', finished, true)
      case Returns(_) =>
        if e.repeat then Visited(Some(e.(lastRun := Some(finished))), heap', finished, true)
        else Visited(None, heap', finished, true)
  }

  /** The state of a pass: the entries (the live list for `RunFrom`, the
      output for the part swept by `Sweep`), heap, clock, number of
      executions so far, and the entries examined, in order. */
  datatype Trace = Trace(entries: seq<Entry>, heap: Heap, clock: int, runs: nat, examined: seq<Entry>)

  /** The `for` loop of `run_once` as written: a list iterator at index `i`
      over the live list, which still advances after the entry at `i` has
      been removed. It never grows the list, keeps the heap's ids and moves
      the clock forward only; `RunFromIsSweep` says what it computes. */
  function RunFrom(entries: seq<Entry>, i: nat, heap: Heap, clock: int, runs: nat, examined: seq<Entry>, oracle: nat -> Run): (t: Trace)
    requires Refers(entries, heap)
    ensures |t.entries| <= |entries| && t.heap.Keys == heap.Keys && clock <= t.clock
    decreases |entries| - i
  {
    if i >= |entries| then Trace(entries, heap, clock, runs, examined)
    else
      var e := entries[i];
      var v := Visit(e, heap, clock, oracle(runs));
      var live := if v.kept.Some? then entries[i := v.kept.value] else entries[..i] + entries[i + 1..];
      RunFrom(live, i + 1, v.heap, v.clock, if v.ran then runs + 1 else runs, examined + [e], oracle)
  }

  /** `out` arises from `src` by deleting entries and updating `last_run`:
      task, schedule time, interval and repeat flag are kept, in order. */
  predicate Embeds(out: seq<Entry>, src: seq<Entry>)
    decreases |src|
  {
    if out == [] then true
    else if src == [] then false
    else (out[0].(lastRun := None) == src[0].(lastRun := None) && Embeds(out[1..], src[1..])) || Embeds(out, src[1..])
  }

  /** How many entries recur (`repeat` is set). */
  function Repeating(entries: seq<Entry>): nat {
    |Filter(entries, (e: Entry) => e.repeat)|
  }

  /** The pass described over the original list `rest`: each entry is
      examined with `Visit`; with `skipAfterRemoval`, the entry after each
      removed one is passed over unexamined and kept unchanged (`skipNext`
      says the first entry of `rest` is such an entry). */
  function Sweep(rest: seq<Entry>, heap: Heap, clock: int, runs: nat, skipNext: bool, skipAfterRemoval: bool, oracle: nat -> Run): (t: Trace)
    requires Refers(rest, heap)
    ensures t.heap.Keys == heap.Keys
    ensures clock <= t.clock
    decreases |rest|
  {
    if rest == [] then Trace([], heap, clock, runs, [])
    else if skipNext then
      var t := Sweep(rest[1..], heap, clock, runs, false, skipAfterRemoval, oracle);
      t.(entries := [rest[0]] + t.entries)
    else
      var v := Visit(rest[0], heap, clock, oracle(runs));
      var t := Sweep(rest[1..], v.heap, v.clock, if v.ran then runs + 1 else runs, skipAfterRemoval && v.kept.None?, skipAfterRemoval, oracle);
      t.(entries := (if v.kept.Some? then [v.kept.value] else []) + t.entries, examined := [rest[0]] + t.examined)
  }

  /** What a pass did at one entry of the original list: whether it examined
      the entry, the clock at that moment, whether the entry's task ran, how
      many executions came before it, and the oracle's answer for the next
      execution. */
  datatype Step = Step(examined: bool, at: int, ran: bool, k: nat, run: Run)

  /** The clock after a step: a run takes its duration, anything else no time. */
  function Finish(st: Step): int {
    st.at + if st.ran then st.run.duration else 0
  }

  /** The step removes its entry: the task ran, the work returned, and the
      entry is a one-shot. */
  predicate Removes(e: Entry, st: Step) {
    st.ran && st.run.outcome.Returns? && !e.repeat
  }

  /** The entry as it stays in the list after its step: a repeating entry
      whose work returned has `last_run` set to the finish time; any other
      entry (not run, failed, skipped) is exactly as it was. */
  function After(e: Entry, st: Step): Entry {
    if st.ran && st.run.outcome.Returns? && e.repeat then e.(lastRun := Some(Finish(st))) else e
  }

  /** The entries that stay, in their original order, each as `After` leaves it. */
  function Survivors(rest: seq<Entry>, log: seq<Step>): seq<Entry>
    requires |log| == |rest|
    decreases |rest|
  {
    if rest == [] then []
    else (if Removes(rest[0], log[0]) then [] else [After(rest[0], log[0])]) + Survivors(rest[1..], log[1..])
  }

  /** Some step of the log ran the task `id`. */
  predicate RunsTask(rest: seq<Entry>, log: seq<Step>, id: TaskId)
    requires |log| == |rest|
  {
    exists i :: 0 <= i < |rest| && log[i].ran && rest[i].task == id
  }

  /** The record of a sweep, one step per entry of `rest`, in the same
      recursion as `Sweep`. `LogRuns` and `LogChain` say what it holds. */
  function Log(rest: seq<Entry>, heap: Heap, clock: int, runs: nat, skipNext: bool, skipAfterRemoval: bool, oracle: nat -> Run): (log: seq<Step>)
    requires Refers(rest, heap)
    ensures |log| == |rest|
    decreases |rest|
  {
    if rest == [] then []
    else if skipNext then
      [Step(false, clock, false, runs, oracle(runs))] + Log(rest[1..], heap, clock, runs, false, skipAfterRemoval, oracle)
    else
      var v := Visit(rest[0], heap, clock, oracle(runs));
      [Step(true, clock, v.ran, runs, oracle(runs))]
        + Log(rest[1..], v.heap, v.clock, if v.ran then runs + 1 else runs, skipAfterRemoval && v.kept.None?, skipAfterRemoval, oracle)
  }

  /** An entry runs exactly when the pass examines it, it is due at the
      clock of that moment, and its task was not `Running` when the pass
      began. */
  lemma {:induction false} LogRuns(rest: seq<Entry>, heap: Heap, clock: int, runs: nat, skipNext: bool, skipAfterRemoval: bool, oracle: nat -> Run)
    requires Refers(rest, heap)
    ensures var log := Log(rest, heap, clock, runs, skipNext, skipAfterRemoval, oracle);
            forall i :: 0 <= i < |rest| ==>
              (log[i].ran <==> log[i].examined && IsDue(rest[i], log[i].at) && heap[rest[i].task].status != Running)
    decreases |rest|
  {
    if rest != [] {
      var log := Log(rest, heap, clock, runs, skipNext, skipAfterRemoval, oracle);
      if skipNext {
        var log' := Log(rest[1..], heap, clock, runs, false, skipAfterRemoval, oracle);
        LogRuns(rest[1..], heap, clock, runs, false, skipAfterRemoval, oracle);
        assert forall i :: 0 < i < |rest| ==> rest[i] == rest[1..][i - 1] && log[i] == log'[i - 1];
      } else {
        var v := Visit(rest[0], heap, clock, oracle(runs));
        VisitKeepsRunning(rest[0], heap, clock, oracle(runs));
        var log' := Log(rest[1..], v.heap, v.clock, if v.ran then runs + 1 else runs, skipAfterRemoval && v.kept.None?, skipAfterRemoval, oracle);
        LogRuns(rest[1..], v.heap, v.clock, if v.ran then runs + 1 else runs, skipAfterRemoval && v.kept.None?, skipAfterRemoval, oracle);
        assert forall i :: 0 < i < |rest| ==> rest[i] == rest[1..][i - 1] && log[i] == log'[i - 1];
      }
    }
  }

  /** Step `next`, at entry after `e` whose step was `prev`, follows it:
      the clock has advanced by the run's duration if there was one, the
      execution count by one if there was one, and `next` is examined unless,
      with `skipAfterRemoval`, `prev` removed `e`. */
  predicate Follows(prev: Step, e: Entry, next: Step, skipAfterRemoval: bool) {
    next.at == Finish(prev)
    && next.k == prev.k + (if prev.ran then 1 else 0)
    && (next.examined <==> !(skipAfterRemoval && Removes(e, prev)))
  }

  /** Every step of the log follows the one before it. */
  predicate Chained(rest: seq<Entry>, log: seq<Step>, skipAfterRemoval: bool)
    requires |log| == |rest|
  {
    forall i :: 0 < i < |rest| ==> Follows(log[i - 1], rest[i - 1], log[i], skipAfterRemoval)
  }

  lemma ChainedCons(e: Entry, st: Step, rest: seq<Entry>, log: seq<Step>, skipAfterRemoval: bool)
    requires |log| == |rest| && Chained(rest, log, skipAfterRemoval)
    requires |rest| > 0 ==> Follows(st, e, log[0], skipAfterRemoval)
    ensures Chained([e] + rest, [st] + log, skipAfterRemoval)
  {
    var rest', log' := [e] + rest, [st] + log;
    forall i | 0 < i < |rest'|
      ensures Follows(log'[i - 1], rest'[i - 1], log'[i], skipAfterRemoval)
    {
      if i > 1 {
        assert log'[i - 1] == log[i - 2] && rest'[i - 1] == rest[i - 2] && log'[i] == log[i - 1];
      }
    }
  }

  /** The steps follow one another from the pass's clock and execution
      count, the first examined unless `skipNext`. */
  lemma {:induction false} LogChain(rest: seq<Entry>, heap: Heap, clock: int, runs: nat, skipNext: bool, skipAfterRemoval: bool, oracle: nat -> Run)
    requires Refers(rest, heap)
    ensures var log := Log(rest, heap, clock, runs, skipNext, skipAfterRemoval, oracle);
            (|rest| > 0 ==> log[0].at == clock && log[0].k == runs && log[0].examined == !skipNext)
            && Chained(rest, log, skipAfterRemoval)
    decreases |rest|
  {
    if rest != [] {
      assert rest == [rest[0]] + rest[1..];
      if skipNext {
        var st := Step(false, clock, false, runs, oracle(runs));
        var log' := Log(rest[1..], heap, clock, runs, false, skipAfterRemoval, oracle);
        LogChain(rest[1..], heap, clock, runs, false, skipAfterRemoval, oracle);
        ChainedCons(rest[0], st, rest[1..], log', skipAfterRemoval);
      } else {
        var v := Visit(rest[0], heap, clock, oracle(runs));
        var st := Step(true, clock, v.ran, runs, oracle(runs));
        var log' := Log(rest[1..], v.heap, v.clock, if v.ran then runs + 1 else runs, skipAfterRemoval && v.kept.None?, skipAfterRemoval, oracle);
        LogChain(rest[1..], v.heap, v.clock, if v.ran then runs + 1 else runs, skipAfterRemoval && v.kept.None?, skipAfterRemoval, oracle);
        assert v.clock == Finish(st) && (v.kept.None? <==> Removes(rest[0], st));
        ChainedCons(rest[0], st, rest[1..], log', skipAfterRemoval);
      }
    }
  }

  /** Each step carries the oracle's answer for its execution number, and
      none happens before `clock`. */
  predicate Answered(log: seq<Step>, oracle: nat -> Run, clock: int) {
    forall i :: 0 <= i < |log| ==> log[i].run == oracle(log[i].k) && clock <= log[i].at
  }

  /** The steps of a sweep started at `clock` are answered by the oracle. */
  lemma {:induction false} LogAnswers(rest: seq<Entry>, heap: Heap, clock: int, runs: nat, skipNext: bool, skipAfterRemoval: bool, oracle: nat -> Run)
    requires Refers(rest, heap)
    ensures Answered(Log(rest, heap, clock, runs, skipNext, skipAfterRemoval, oracle), oracle, clock)
    decreases |rest|
  {
    if rest != [] {
      var log := Log(rest, heap, clock, runs, skipNext, skipAfterRemoval, oracle);
      if skipNext {
        var log' := Log(rest[1..], heap, clock, runs, false, skipAfterRemoval, oracle);
        LogAnswers(rest[1..], heap, clock, runs, false, skipAfterRemoval, oracle);
        assert forall i :: 0 < i < |rest| ==> log[i] == log'[i - 1];
      } else {
        var v := Visit(rest[0], heap, clock, oracle(runs));
        var log' := Log(rest[1..], v.heap, v.clock, if v.ran then runs + 1 else runs, skipAfterRemoval && v.kept.None?, skipAfterRemoval, oracle);
        LogAnswers(rest[1..], v.heap, v.clock, if v.ran then runs + 1 else runs, skipAfterRemoval && v.kept.None?, skipAfterRemoval, oracle);
        assert clock <= v.clock;
        assert forall i :: 0 < i < |rest| ==> log[i] == log'[i - 1];
      }
    }
  }

  /** The entries a sweep keeps are the survivors of its log: an entry is
      gone exactly when its step ran it, the work returned and it is a
      one-shot; a repeating entry whose work returned gets `last_run`; every
      other entry stays exactly as it was. */
  lemma {:induction false} SweepSurvivors(rest: seq<Entry>, heap: Heap, clock: int, runs: nat, skipNext: bool, skipAfterRemoval: bool, oracle: nat -> Run)
    requires Refers(rest, heap)
    ensures Sweep(rest, heap, clock, runs, skipNext, skipAfterRemoval, oracle).entries
         == Survivors(rest, Log(rest, heap, clock, runs, skipNext, skipAfterRemoval, oracle))
    decreases |rest|
  {
    if rest != [] {
      var log := Log(rest, heap, clock, runs, skipNext, skipAfterRemoval, oracle);
      if skipNext {
        var log' := Log(rest[1..], heap, clock, runs, false, skipAfterRemoval, oracle);
        SweepSurvivors(rest[1..], heap, clock, runs, false, skipAfterRemoval, oracle);
        assert log[1..] == log';
        assert !Removes(rest[0], log[0]) && After(rest[0], log[0]) == rest[0];
      } else {
        var v := Visit(rest[0], heap, clock, oracle(runs));
        var runs' := if v.ran then runs + 1 else runs;
        var log' := Log(rest[1..], v.heap, v.clock, runs', skipAfterRemoval && v.kept.None?, skipAfterRemoval, oracle);
        SweepSurvivors(rest[1..], v.heap, v.clock, runs', skipAfterRemoval && v.kept.None?, skipAfterRemoval, oracle);
        assert log[1..] == log';
        assert v.kept.None? <==> Removes(rest[0], log[0]);
        assert v.kept.Some? ==> v.kept.value == After(rest[0], log[0]);
      }
    }
  }

  /** A task that no step of the log ran has the same record after the
      sweep as before it. */
  lemma {:induction false} SweepHeapFrame(rest: seq<Entry>, heap: Heap, clock: int, runs: nat, skipNext: bool, skipAfterRemoval: bool, oracle: nat -> Run)
    requires Refers(rest, heap)
    ensures var log := Log(rest, heap, clock, runs, skipNext, skipAfterRemoval, oracle);
            var t := Sweep(rest, heap, clock, runs, skipNext, skipAfterRemoval, oracle);
            forall id :: id in heap && !RunsTask(rest, log, id) ==> t.heap[id] == heap[id]
    decreases |rest|
  {
    if rest != [] {
      var log := Log(rest, heap, clock, runs, skipNext, skipAfterRemoval, oracle);
      if skipNext {
        var log' := Log(rest[1..], heap, clock, runs, false, skipAfterRemoval, oracle);
        SweepHeapFrame(rest[1..], heap, clock, runs, false, skipAfterRemoval, oracle);
        RunsTaskTail(rest, log);
      } else {
        var v := Visit(rest[0], heap, clock, oracle(runs));
        var runs' := if v.ran then runs + 1 else runs;
        var log' := Log(rest[1..], v.heap, v.clock, runs', skipAfterRemoval && v.kept.None?, skipAfterRemoval, oracle);
        SweepHeapFrame(rest[1..], v.heap, v.clock, runs', skipAfterRemoval && v.kept.None?, skipAfterRemoval, oracle);
        RunsTaskTail(rest, log);
        assert log[0].ran == v.ran;
      }
    }
  }

  /** Every task some step of the log ran is `Completed` or `Failed` in `h`. */
  ghost predicate Settles(rest: seq<Entry>, log: seq<Step>, h: Heap)
    requires |log| == |rest|
  {
    forall id :: RunsTask(rest, log, id) ==> id in h && (h[id].status == Completed || h[id].status == Failed)
  }

  /** A task that some step of the log ran ends the sweep `Completed` or
      `Failed`. */
  lemma {:induction false} SweepSettlesRunTasks(rest: seq<Entry>, heap: Heap, clock: int, runs: nat, skipNext: bool, skipAfterRemoval: bool, oracle: nat -> Run)
    requires Refers(rest, heap)
    ensures Settles(rest, Log(rest, heap, clock, runs, skipNext, skipAfterRemoval, oracle), Sweep(rest, heap, clock, runs, skipNext, skipAfterRemoval, oracle).heap)
    decreases |rest|
  {
    if rest != [] {
      var log := Log(rest, heap, clock, runs, skipNext, skipAfterRemoval, oracle);
      var t := Sweep(rest, heap, clock, runs, skipNext, skipAfterRemoval, oracle);
      RunsTaskTail(rest, log);
      if skipNext {
        var log' := Log(rest[1..], heap, clock, runs, false, skipAfterRemoval, oracle);
        SweepSettlesRunTasks(rest[1..], heap, clock, runs, false, skipAfterRemoval, oracle);
        assert log[1..] == log' && !log[0].ran;
        var t' := Sweep(rest[1..], heap, clock, runs, false, skipAfterRemoval, oracle);
        assert t.heap == t'.heap;
        forall id | RunsTask(rest, log, id)
          ensures id in t.heap && (t.heap[id].status == Completed || t.heap[id].status == Failed)
        {
          assert RunsTask(rest[1..], log', id);
        }
      } else {
        var v := Visit(rest[0], heap, clock, oracle(runs));
        var runs' := if v.ran then runs + 1 else runs;
        var log' := Log(rest[1..], v.heap, v.clock, runs', skipAfterRemoval && v.kept.None?, skipAfterRemoval, oracle);
        var t' := Sweep(rest[1..], v.heap, v.clock, runs', skipAfterRemoval && v.kept.None?, skipAfterRemoval, oracle);
        SweepSettlesRunTasks(rest[1..], v.heap, v.clock, runs', skipAfterRemoval && v.kept.None?, skipAfterRemoval, oracle);
        SweepHeapFrame(rest[1..], v.heap, v.clock, runs', skipAfterRemoval && v.kept.None?, skipAfterRemoval, oracle);
        assert log[1..] == log' && log[0].ran == v.ran && t.heap == t'.heap;
        forall id | RunsTask(rest, log, id)
          ensures id in t.heap && (t.heap[id].status == Completed || t.heap[id].status == Failed)
        {
          if !RunsTask(rest[1..], log', id) {
            assert v.ran && id == rest[0].task;
            assert t'.heap[id] == v.heap[id];
          }
        }
      }
    }
  }

  /** Step `i` is the last step of the log that runs its entry's task. */
  predicate IsLastRun(rest: seq<Entry>, log: seq<Step>, i: nat)
    requires |log| == |rest| && i < |rest|
  {
    log[i].ran && forall j :: i < j < |rest| && log[j].ran ==> rest[j].task != rest[i].task
  }

  /** Task record `t` is what the run of step `st` leaves: completed with
      the returned value, or failed with the exception's message, started at
      the step's clock and completed when the work finished. */
  predicate Records(t: Task, st: Step) {
    t.startedAt == Some(st.at)
    && t.completedAt == Some(Finish(st))
    && (st.run.outcome.Returns? ==> t.status == Completed && t.result == st.run.outcome.value)
    && (st.run.outcome.Raises? ==> t.status == Failed && t.error == Some(st.run.outcome.message))
  }

  /** After the sweep, each task that ran holds what its last run left. */
  ghost predicate RecordsLastRuns(rest: seq<Entry>, log: seq<Step>, h: Heap)
    requires |log| == |rest|
  {
    forall i :: 0 <= i < |rest| && IsLastRun(rest, log, i) ==> rest[i].task in h && Records(h[rest[i].task], log[i])
  }

  /** Whether a later step is the last run of its task is decided by the
      tail of the log; a first step that is a last run leaves its task to no
      later step. */
  lemma IsLastRunTail(rest: seq<Entry>, log: seq<Step>)
    requires |log| == |rest| && rest != []
    ensures forall i :: 0 < i < |rest| ==> (IsLastRun(rest, log, i) <==> IsLastRun(rest[1..], log[1..], i - 1))
    ensures IsLastRun(rest, log, 0) ==> !RunsTask(rest[1..], log[1..], rest[0].task)
  {
    forall i | 0 < i < |rest|
      ensures IsLastRun(rest, log, i) <==> IsLastRun(rest[1..], log[1..], i - 1)
    {
      assert rest[1..][i - 1] == rest[i] && log[1..][i - 1] == log[i];
      assert forall j :: i - 1 < j < |rest[1..]| ==> rest[1..][j] == rest[j + 1] && log[1..][j] == log[j + 1];
    }
  }

  /** The last runs of a log are recorded in `h` when those of its tail are,
      and the first step, if it is the last run of its task, is too. */
  lemma RecordsCons(rest: seq<Entry>, log: seq<Step>, h: Heap)
    requires |log| == |rest| && rest != []
    requires RecordsLastRuns(rest[1..], log[1..], h)
    requires IsLastRun(rest, log, 0) ==> rest[0].task in h && Records(h[rest[0].task], log[0])
    ensures RecordsLastRuns(rest, log, h)
  {
    IsLastRunTail(rest, log);
    forall i | 0 < i < |rest| && IsLastRun(rest, log, i)
      ensures rest[i].task in h && Records(h[rest[i].task], log[i])
    {
      assert IsLastRun(rest[1..], log[1..], i - 1);
      assert rest[1..][i - 1] == rest[i] && log[1..][i - 1] == log[i];
    }
  }

  /** A task that ran ends the sweep with the status, result or error, and
      timestamps of its last run. */
  lemma {:induction false} SweepRecordsLastRuns(rest: seq<Entry>, heap: Heap, clock: int, runs: nat, skipNext: bool, skipAfterRemoval: bool, oracle: nat -> Run)
    requires Refers(rest, heap)
    ensures RecordsLastRuns(rest, Log(rest, heap, clock, runs, skipNext, skipAfterRemoval, oracle), Sweep(rest, heap, clock, runs, skipNext, skipAfterRemoval, oracle).heap)
    decreases |rest|, 1
  {
    if rest != [] {
      var log := Log(rest, heap, clock, runs, skipNext, skipAfterRemoval, oracle);
      var t := Sweep(rest, heap, clock, runs, skipNext, skipAfterRemoval, oracle);
      if skipNext {
        SweepRecordsLastRuns(rest[1..], heap, clock, runs, false, skipAfterRemoval, oracle);
        assert log[1..] == Log(rest[1..], heap, clock, runs, false, skipAfterRemoval, oracle) && !log[0].ran;
        assert t.heap == Sweep(rest[1..], heap, clock, runs, false, skipAfterRemoval, oracle).heap;
        RecordsCons(rest, log, t.heap);
      } else {
        RecordsVisitCase(rest, heap, clock, runs, skipAfterRemoval, oracle);
      }
    }
  }

  /** `SweepRecordsLastRuns` when the first entry is examined. */
  lemma {:induction false} RecordsVisitCase(rest: seq<Entry>, heap: Heap, clock: int, runs: nat, skipAfterRemoval: bool, oracle: nat -> Run)
    requires Refers(rest, heap) && rest != []
    ensures RecordsLastRuns(rest, Log(rest, heap, clock, runs, false, skipAfterRemoval, oracle), Sweep(rest, heap, clock, runs, false, skipAfterRemoval, oracle).heap)
    decreases |rest|, 0
  {
    var log := Log(rest, heap, clock, runs, false, skipAfterRemoval, oracle);
    var t := Sweep(rest, heap, clock, runs, false, skipAfterRemoval, oracle);
    var v := Visit(rest[0], heap, clock, oracle(runs));
    var runs' := if v.ran then runs + 1 else runs;
    var log' := Log(rest[1..], v.heap, v.clock, runs', skipAfterRemoval && v.kept.None?, skipAfterRemoval, oracle);
    var t' := Sweep(rest[1..], v.heap, v.clock, runs', skipAfterRemoval && v.kept.None?, skipAfterRemoval, oracle);
    SweepRecordsLastRuns(rest[1..], v.heap, v.clock, runs', skipAfterRemoval && v.kept.None?, skipAfterRemoval, oracle);
    assert log == [Step(true, clock, v.ran, runs, oracle(runs))] + log';
    assert log[1..] == log' && t.heap == t'.heap;
    if IsLastRun(rest, log, 0) {
      var id := rest[0].task;
      IsLastRunTail(rest, log);
      SweepHeapFrame(rest[1..], v.heap, v.clock, runs', skipAfterRemoval && v.kept.None?, skipAfterRemoval, oracle);
      assert t'.heap[id] == v.heap[id];
      VisitRecords(rest[0], heap, clock, runs, oracle(runs));
    }
    RecordsCons(rest, log, t.heap);
  }

  /** A visit that runs its entry's task leaves the record of that run. */
  lemma VisitRecords(e: Entry, heap: Heap, clock: int, k: nat, run: Run)
    requires e.task in heap
    requires Visit(e, heap, clock, run).ran
    ensures Records(Visit(e, heap, clock, run).heap[e.task], Step(true, clock, true, k, run))
  {
  }

  /** Some step of the log ran the task `id` and its work raised (`raised`)
      or returned (`!raised`). */
  predicate RunsWith(rest: seq<Entry>, log: seq<Step>, id: TaskId, raised: bool)
    requires |log| == |rest|
  {
    exists i :: 0 <= i < |rest| && log[i].ran && rest[i].task == id && log[i].run.outcome.Raises? == raised
  }

  /** From `before` to `after`, every task keeps its name, description and
      creation time; a task no run failed keeps its error, and a task no run
      succeeded on keeps its result. */
  ghost predicate KeepsFields(rest: seq<Entry>, log: seq<Step>, before: Heap, after: Heap)
    requires |log| == |rest|
  {
    forall id :: id in before ==>
      id in after
      && after[id].name == before[id].name
      && after[id].description == before[id].description
      && after[id].createdAt == before[id].createdAt
      && (!RunsWith(rest, log, id, true) ==> after[id].error == before[id].error)
      && (!RunsWith(rest, log, id, false) ==> after[id].result == before[id].result)
  }

  /** The fields one step keeps from `before` to `after`. */
  ghost predicate StepKeeps(e: Entry, st: Step, before: Heap, after: Heap) {
    forall id :: id in before ==>
      id in after
      && after[id].name == before[id].name
      && after[id].description == before[id].description
      && after[id].createdAt == before[id].createdAt
      && (!(st.ran && e.task == id && st.run.outcome.Raises?) ==> after[id].error == before[id].error)
      && (!(st.ran && e.task == id && st.run.outcome.Returns?) ==> after[id].result == before[id].result)
  }

  /** A first step that keeps the fields, followed by a tail that does. */
  lemma KeepsFieldsCons(rest: seq<Entry>, log: seq<Step>, h0: Heap, h1: Heap, h2: Heap)
    requires |log| == |rest| && rest != []
    requires StepKeeps(rest[0], log[0], h0, h1)
    requires KeepsFields(rest[1..], log[1..], h1, h2)
    ensures KeepsFields(rest, log, h0, h2)
  {
    forall id, raised | RunsWith(rest[1..], log[1..], id, raised)
      ensures RunsWith(rest, log, id, raised)
    {
      var j :| 0 <= j < |rest[1..]| && log[1..][j].ran && rest[1..][j].task == id && log[1..][j].run.outcome.Raises? == raised;
      assert log[j + 1] == log[1..][j] && rest[j + 1] == rest[1..][j];
    }
    forall id, raised | log[0].ran && rest[0].task == id && log[0].run.outcome.Raises? == raised
      ensures RunsWith(rest, log, id, raised)
    {
      assert log[0].ran && rest[0].task == id && log[0].run.outcome.Raises? == raised;
    }
  }

  /** A visit keeps every task's identity fields, and the fields its run does
      not write. */
  lemma VisitKeepsFields(e: Entry, heap: Heap, clock: int, k: nat, run: Run)
    requires e.task in heap
    ensures var v := Visit(e, heap, clock, run);
            StepKeeps(e, Step(true, clock, v.ran, k, run), heap, v.heap)
  {
  }

  /** A sweep keeps every task's name, description and creation time; a
      task whose work never raised in the pass keeps its error, and one whose
      work never returned keeps its result. */
  lemma {:induction false} SweepKeepsFields(rest: seq<Entry>, heap: Heap, clock: int, runs: nat, skipNext: bool, skipAfterRemoval: bool, oracle: nat -> Run)
    requires Refers(rest, heap)
    ensures KeepsFields(rest, Log(rest, heap, clock, runs, skipNext, skipAfterRemoval, oracle), heap, Sweep(rest, heap, clock, runs, skipNext, skipAfterRemoval, oracle).heap)
    decreases |rest|
  {
    if rest == [] {
      var log := Log(rest, heap, clock, runs, skipNext, skipAfterRemoval, oracle);
      assert forall id, raised :: !RunsWith(rest, log, id, raised);
    } else {
      var log := Log(rest, heap, clock, runs, skipNext, skipAfterRemoval, oracle);
      var t := Sweep(rest, heap, clock, runs, skipNext, skipAfterRemoval, oracle);
      if skipNext {
        SweepKeepsFields(rest[1..], heap, clock, runs, false, skipAfterRemoval, oracle);
        assert log[1..] == Log(rest[1..], heap, clock, runs, false, skipAfterRemoval, oracle) && !log[0].ran;
        assert t.heap == Sweep(rest[1..], heap, clock, runs, false, skipAfterRemoval, oracle).heap;
        assert StepKeeps(rest[0], log[0], heap, heap);
        KeepsFieldsCons(rest, log, heap, heap, t.heap);
      } else {
        var v := Visit(rest[0], heap, clock, oracle(runs));
        var runs' := if v.ran then runs + 1 else runs;
        SweepKeepsFields(rest[1..], v.heap, v.clock, runs', skipAfterRemoval && v.kept.None?, skipAfterRemoval, oracle);
        assert log[1..] == Log(rest[1..], v.heap, v.clock, runs', skipAfterRemoval && v.kept.None?, skipAfterRemoval, oracle);
        assert log[0] == Step(true, clock, v.ran, runs, oracle(runs));
        assert t.heap == Sweep(rest[1..], v.heap, v.clock, runs', skipAfterRemoval && v.kept.None?, skipAfterRemoval, oracle).heap;
        VisitKeepsFields(rest[0], heap, clock, runs, oracle(runs));
        KeepsFieldsCons(rest, log, heap, v.heap, t.heap);
      }
    }
  }

  /** A log runs a task exactly when its first step or its tail does. */
  lemma RunsTaskTail(rest: seq<Entry>, log: seq<Step>)
    requires |log| == |rest| && rest != []
    ensures forall id :: RunsTask(rest[1..], log[1..], id) ==> RunsTask(rest, log, id)
    ensures log[0].ran ==> RunsTask(rest, log, rest[0].task)
    ensures forall id :: RunsTask(rest, log, id) ==> RunsTask(rest[1..], log[1..], id) || (log[0].ran && rest[0].task == id)
  {
    forall id | RunsTask(rest[1..], log[1..], id)
      ensures RunsTask(rest, log, id)
    {
      var j :| 0 <= j < |rest[1..]| && log[1..][j].ran && rest[1..][j].task == id;
      assert log[j + 1].ran && rest[j + 1].task == id;
    }
    if log[0].ran {
      assert log[0].ran && rest[0].task == rest[0].task;
    }
    forall id | RunsTask(rest, log, id) && !(log[0].ran && rest[0].task == id)
      ensures RunsTask(rest[1..], log[1..], id)
    {
      var j :| 0 <= j < |rest| && log[j].ran && rest[j].task == id;
      assert j > 0 && log[1..][j - 1].ran && rest[1..][j - 1].task == id;
    }
  }

  /** A visit changes no task's being `Running`: a task that runs ends
      `Completed` or `Failed`, and only a task not running is run. */
  lemma VisitKeepsRunning(e: Entry, heap: Heap, clock: int, run: Run)
    requires e.task in heap
    ensures var v := Visit(e, heap, clock, run);
            forall id :: id in heap ==> (v.heap[id].status == Running <==> heap[id].status == Running)
  {
  }

  /** A sweep never adds or examines more entries than it was given. */
  lemma {:induction false} SweepShrinks(rest: seq<Entry>, heap: Heap, clock: int, runs: nat, skipNext: bool, skipAfterRemoval: bool, oracle: nat -> Run)
    requires Refers(rest, heap)
    ensures var t := Sweep(rest, heap, clock, runs, skipNext, skipAfterRemoval, oracle);
            |t.entries| <= |rest| && |t.examined| <= |rest|
    decreases |rest|
  {
    if rest != [] {
      if skipNext {
        SweepShrinks(rest[1..], heap, clock, runs, false, skipAfterRemoval, oracle);
      } else {
        var v := Visit(rest[0], heap, clock, oracle(runs));
        SweepShrinks(rest[1..], v.heap, v.clock, if v.ran then runs + 1 else runs, skipAfterRemoval && v.kept.None?, skipAfterRemoval, oracle);
      }
    }
  }

  /** The surviving entries keep their task and policy, in order. */
  lemma {:induction false} SweepEmbeds(rest: seq<Entry>, heap: Heap, clock: int, runs: nat, skipNext: bool, skipAfterRemoval: bool, oracle: nat -> Run)
    requires Refers(rest, heap)
    ensures Embeds(Sweep(rest, heap, clock, runs, skipNext, skipAfterRemoval, oracle).entries, rest)
    decreases |rest|
  {
    if rest != [] {
      var out := Sweep(rest, heap, clock, runs, skipNext, skipAfterRemoval, oracle).entries;
      if skipNext {
        var t' := Sweep(rest[1..], heap, clock, runs, false, skipAfterRemoval, oracle);
        SweepEmbeds(rest[1..], heap, clock, runs, false, skipAfterRemoval, oracle);
        assert out == [rest[0]] + t'.entries;
        EmbedsCons(rest[0], t'.entries, rest);
      } else {
        var v := Visit(rest[0], heap, clock, oracle(runs));
        var t' := Sweep(rest[1..], v.heap, v.clock, if v.ran then runs + 1 else runs, skipAfterRemoval && v.kept.None?, skipAfterRemoval, oracle);
        SweepEmbeds(rest[1..], v.heap, v.clock, if v.ran then runs + 1 else runs, skipAfterRemoval && v.kept.None?, skipAfterRemoval, oracle);
        if v.kept.Some? {
          assert out == [v.kept.value] + t'.entries;
          EmbedsCons(v.kept.value, t'.entries, rest);
        } else {
          assert out == t'.entries;
          EmbedsDrop(t'.entries, rest);
        }
      }
    }
  }

  lemma EmbedsCons(x: Entry, out: seq<Entry>, src: seq<Entry>)
    requires src != [] && x.(lastRun := None) == src[0].(lastRun := None) && Embeds(out, src[1..])
    ensures Embeds([x] + out, src)
  {
    assert ([x] + out)[1..] == out;
  }

  lemma EmbedsDrop(out: seq<Entry>, src: seq<Entry>)
    requires src != [] && Embeds(out, src[1..])
    ensures Embeds(out, src)
  {
  }

  /** Every recurring entry survives a sweep. */
  lemma {:induction false} SweepKeepsRepeating(rest: seq<Entry>, heap: Heap, clock: int, runs: nat, skipNext: bool, skipAfterRemoval: bool, oracle: nat -> Run)
    requires Refers(rest, heap)
    ensures Repeating(Sweep(rest, heap, clock, runs, skipNext, skipAfterRemoval, oracle).entries) == Repeating(rest)
    decreases |rest|
  {
    if rest != [] {
      var out := Sweep(rest, heap, clock, runs, skipNext, skipAfterRemoval, oracle).entries;
      RepeatingCons(rest[0], rest[1..]);
      assert rest == [rest[0]] + rest[1..];
      if skipNext {
        var t' := Sweep(rest[1..], heap, clock, runs, false, skipAfterRemoval, oracle);
        SweepKeepsRepeating(rest[1..], heap, clock, runs, false, skipAfterRemoval, oracle);
        assert out == [rest[0]] + t'.entries;
        RepeatingCons(rest[0], t'.entries);
      } else {
        var v := Visit(rest[0], heap, clock, oracle(runs));
        var t' := Sweep(rest[1..], v.heap, v.clock, if v.ran then runs + 1 else runs, skipAfterRemoval && v.kept.None?, skipAfterRemoval, oracle);
        SweepKeepsRepeating(rest[1..], v.heap, v.clock, if v.ran then runs + 1 else runs, skipAfterRemoval && v.kept.None?, skipAfterRemoval, oracle);
        if v.kept.Some? {
          assert out == [v.kept.value] + t'.entries;
          RepeatingCons(v.kept.value, t'.entries);
        } else {
          assert out == t'.entries;
        }
      }
    }
  }

  lemma RepeatingCons(x: Entry, s: seq<Entry>)
    ensures Repeating([x] + s) == (if x.repeat then 1 else 0) + Repeating(s)
  {
    assert ([x] + s)[1..] == s;
  }

  /** Every entry a sweep keeps still refers to a task in the heap. */
  lemma {:induction false} SweepRefers(rest: seq<Entry>, heap: Heap, clock: int, runs: nat, skipNext: bool, skipAfterRemoval: bool, oracle: nat -> Run)
    requires Refers(rest, heap)
    ensures var t := Sweep(rest, heap, clock, runs, skipNext, skipAfterRemoval, oracle);
            Refers(t.entries, t.heap)
    decreases |rest|
  {
    if rest != [] {
      if skipNext {
        SweepRefers(rest[1..], heap, clock, runs, false, skipAfterRemoval, oracle);
      } else {
        var v := Visit(rest[0], heap, clock, oracle(runs));
        var runs' := if v.ran then runs + 1 else runs;
        SweepRefers(rest[1..], v.heap, v.clock, runs', skipAfterRemoval && v.kept.None?, skipAfterRemoval, oracle);
      }
    }
  }

  /** Without skipping, a sweep examines every entry it is given, once, in
      order. */
  lemma {:induction false} SweepExaminesAll(rest: seq<Entry>, heap: Heap, clock: int, runs: nat, oracle: nat -> Run)
    requires Refers(rest, heap)
    ensures Sweep(rest, heap, clock, runs, false, false, oracle).examined == rest
    decreases |rest|
  {
    if rest != [] {
      var v := Visit(rest[0], heap, clock, oracle(runs));
      SweepExaminesAll(rest[1..], v.heap, v.clock, if v.ran then runs + 1 else runs, oracle);
      assert rest == [rest[0]] + rest[1..];
    }
  }

  /** The literal loop, from index `i` on, is the sweep over the rest of the
      list: the Python loop skips exactly the entry after each removal. */
  lemma {:induction false} RunFromIsSweep(entries: seq<Entry>, i: nat, heap: Heap, clock: int, runs: nat, examined: seq<Entry>, oracle: nat -> Run)
    requires Refers(entries, heap)
    requires i <= |entries|
    ensures var s := Sweep(entries[i..], heap, clock, runs, false, true, oracle);
            RunFrom(entries, i, heap, clock, runs, examined, oracle)
              == Trace(entries[..i] + s.entries, s.heap, s.clock, s.runs, examined + s.examined)
    decreases |entries| - i, 1
  {
    if i == |entries| {
      assert entries[..i] + [] == entries;
    } else if Visit(entries[i], heap, clock, oracle(runs)).kept.Some? {
      KeptCase(entries, i, heap, clock, runs, examined, oracle);
    } else if i + 1 < |entries| {
      RemovedCase(entries, i, heap, clock, runs, examined, oracle);
    } else {
      LastRemovedCase(entries, i, heap, clock, runs, examined, oracle);
    }
  }

  /** `RunFromIsSweep` when the examined entry stays in the list. */
  lemma {:induction false} KeptCase(entries: seq<Entry>, i: nat, heap: Heap, clock: int, runs: nat, examined: seq<Entry>, oracle: nat -> Run)
    requires Refers(entries, heap) && i < |entries|
    requires Visit(entries[i], heap, clock, oracle(runs)).kept.Some?
    ensures var s := Sweep(entries[i..], heap, clock, runs, false, true, oracle);
            RunFrom(entries, i, heap, clock, runs, examined, oracle)
              == Trace(entries[..i] + s.entries, s.heap, s.clock, s.runs, examined + s.examined)
    decreases |entries| - i, 0
  {
    var e := entries[i];
    var v := Visit(e, heap, clock, oracle(runs));
    var runs' := if v.ran then runs + 1 else runs;
    RunFromUnfold(entries, i, heap, clock, runs, examined, oracle);
    SweepUnfold(entries[i..], heap, clock, runs, oracle);
    HeadTail(entries, i);
    var x := v.kept.value;
    var live := entries[i := x];
    RunFromIsSweep(live, i + 1, v.heap, v.clock, runs', examined + [e], oracle);
    KeptSlices(entries, i, x);
    var s := Sweep(entries[i + 1..], v.heap, v.clock, runs', false, true, oracle);
    Regroup(entries[..i], [x], s.entries, examined, [e], s.examined);
  }

  /** `RunFromIsSweep` when the examined entry is removed and another
      follows it, which the loop then passes over. */
  lemma {:induction false} RemovedCase(entries: seq<Entry>, i: nat, heap: Heap, clock: int, runs: nat, examined: seq<Entry>, oracle: nat -> Run)
    requires Refers(entries, heap) && i + 1 < |entries|
    requires Visit(entries[i], heap, clock, oracle(runs)).kept.None?
    ensures var s := Sweep(entries[i..], heap, clock, runs, false, true, oracle);
            RunFrom(entries, i, heap, clock, runs, examined, oracle)
              == Trace(entries[..i] + s.entries, s.heap, s.clock, s.runs, examined + s.examined)
    decreases |entries| - i, 0
  {
    var e := entries[i];
    var v := Visit(e, heap, clock, oracle(runs));
    var runs' := if v.ran then runs + 1 else runs;
    RunFromUnfold(entries, i, heap, clock, runs, examined, oracle);
    SweepUnfold(entries[i..], heap, clock, runs, oracle);
    HeadTail(entries, i);
    var live := entries[..i] + entries[i + 1..];
    RunFromIsSweep(live, i + 1, v.heap, v.clock, runs', examined + [e], oracle);
    RemovedSlices(entries, i);
    HeadTail(entries, i + 1);
    SkipUnfold(entries[i + 1..], v.heap, v.clock, runs', oracle);
    var s := Sweep(entries[i + 2..], v.heap, v.clock, runs', false, true, oracle);
    var t := Sweep(entries[i + 1..], v.heap, v.clock, runs', true, true, oracle);
    assert t == s.(entries := [entries[i + 1]] + s.entries);
    var w := Sweep(entries[i..], heap, clock, runs, false, true, oracle);
    assert w == t.(entries := [] + t.entries, examined := [e] + t.examined);
    assert [] + t.entries == t.entries;
    assert w.entries == [entries[i + 1]] + s.entries && w.examined == [e] + s.examined;
    assert RunFrom(entries, i, heap, clock, runs, examined, oracle)
        == Trace(live[..i + 1] + s.entries, s.heap, s.clock, s.runs, examined + [e] + s.examined);
    Regroup(entries[..i], [entries[i + 1]], s.entries, examined, [e], s.examined);
  }

  /** `RunFromIsSweep` when the last entry is examined and removed. */
  lemma LastRemovedCase(entries: seq<Entry>, i: nat, heap: Heap, clock: int, runs: nat, examined: seq<Entry>, oracle: nat -> Run)
    requires Refers(entries, heap) && i + 1 == |entries|
    requires Visit(entries[i], heap, clock, oracle(runs)).kept.None?
    ensures var s := Sweep(entries[i..], heap, clock, runs, false, true, oracle);
            RunFrom(entries, i, heap, clock, runs, examined, oracle)
              == Trace(entries[..i] + s.entries, s.heap, s.clock, s.runs, examined + s.examined)
  {
    assert entries[i..] == [entries[i]] && [entries[i]][1..] == [];
    assert entries[..i] + entries[i + 1..] == entries[..i];
    assert examined + [entries[i]] == examined + ([entries[i]] + []);
    assert entries[..i] + [] == entries[..i];
  }

  /** One iteration of the literal loop. */
  lemma RunFromUnfold(entries: seq<Entry>, i: nat, heap: Heap, clock: int, runs: nat, examined: seq<Entry>, oracle: nat -> Run)
    requires Refers(entries, heap) && i < |entries|
    ensures var v := Visit(entries[i], heap, clock, oracle(runs));
            var live := if v.kept.Some? then entries[i := v.kept.value] else entries[..i] + entries[i + 1..];
            Refers(live, v.heap)
              && RunFrom(entries, i, heap, clock, runs, examined, oracle)
                 == RunFrom(live, i + 1, v.heap, v.clock, if v.ran then runs + 1 else runs, examined + [entries[i]], oracle)
  {
    var v := Visit(entries[i], heap, clock, oracle(runs));
    if v.kept.None? {
      RemovedRefers(entries, i, v.heap);
    }
  }

  lemma RemovedRefers(entries: seq<Entry>, i: nat, heap: Heap)
    requires i < |entries| && Refers(entries, heap)
    ensures Refers(entries[..i] + entries[i + 1..], heap)
  {
    var live := entries[..i] + entries[i + 1..];
    forall j | 0 <= j < |live|
      ensures live[j].task in heap
    {
      if j < i {
        assert live[j] == entries[j];
      } else {
        assert live[j] == entries[j + 1];
      }
    }
  }

  /** One examined entry of the skipping sweep. */
  lemma SweepUnfold(rest: seq<Entry>, heap: Heap, clock: int, runs: nat, oracle: nat -> Run)
    requires Refers(rest, heap) && rest != []
    ensures var v := Visit(rest[0], heap, clock, oracle(runs));
            var runs' := if v.ran then runs + 1 else runs;
            Refers(rest[1..], v.heap)
              && var t := Sweep(rest[1..], v.heap, v.clock, runs', v.kept.None?, true, oracle);
                 Sweep(rest, heap, clock, runs, false, true, oracle)
                   == t.(entries := (if v.kept.Some? then [v.kept.value] else []) + t.entries, examined := [rest[0]] + t.examined)
  {
  }

  /** One skipped entry of the skipping sweep. */
  lemma SkipUnfold(rest: seq<Entry>, heap: Heap, clock: int, runs: nat, oracle: nat -> Run)
    requires Refers(rest, heap) && rest != []
    ensures Refers(rest[1..], heap)
    ensures var t := Sweep(rest[1..], heap, clock, runs, false, true, oracle);
            Sweep(rest, heap, clock, runs, true, true, oracle) == t.(entries := [rest[0]] + t.entries)
  {
  }

  lemma HeadTail<T>(s: seq<T>, i: nat)
    requires i < |s|
    ensures s[i..] != [] && s[i..][0] == s[i] && s[i..][1..] == s[i + 1..]
  {
  }

  lemma Regroup<T>(a: seq<T>, b: seq<T>, c: seq<T>, x: seq<T>, y: seq<T>, z: seq<T>)
    ensures a + b + c == a + (b + c) && x + y + z == x + (y + z)
  {
  }

  lemma KeptSlices<T>(s: seq<T>, i: nat, x: T)
    requires i < |s|
    ensures s[i := x][i + 1..] == s[i + 1..]
    ensures s[i := x][..i + 1] == s[..i] + [x]
  {
  }

  lemma RemovedSlices<T>(s: seq<T>, i: nat)
    requires i + 1 < |s|
    ensures var live := s[..i] + s[i + 1..];
            live[i + 1..] == s[i + 2..] && live[..i + 1] == s[..i] + [s[i + 1]]
  {
  }

  /** The outcome of a pass: the scheduler with its new entry list, the heap,
      the clock when the pass ended, and the entries it examined. */
  datatype Pass = Pass(scheduler: Scheduler, heap: Heap, clock: int, examined: seq<Entry>)

  /** The log of a whole pass over the scheduler's entries from clock time
      `now`, before any execution. */
  function PassLog(s: Scheduler, heap: Heap, now: int, skipAfterRemoval: bool, oracle: nat -> Run): (log: seq<Step>)
    requires Refers(s.entries, heap)
    ensures |log| == |s.entries|
  {
    Log(s.entries, heap, now, 0, false, skipAfterRemoval, oracle)
  }

  /** A whole sweep of the scheduler's entries started at clock time `now`.
      The entries left are the survivors of the pass's log: an entry is gone
      exactly when it ran, its work returned and it is a one-shot; a
      repeating entry whose work returned has `last_run` set to the finish
      time; any other entry is kept as it was. A task no entry ran keeps its
      record; a task that ran ends `Completed` or `Failed`, and holds the
      status, result or error, and timestamps of its last run. Every task
      keeps its name, description and creation time, its error unless a run
      of it raised, and its result unless a run of it returned. The
      survivors keep their order, task and policy, every recurring entry
      survives, and no entry is examined twice. */
  function SweepPass(s: Scheduler, heap: Heap, now: int, skipAfterRemoval: bool, oracle: nat -> Run): (p: Pass)
    requires Refers(s.entries, heap)
    ensures p.scheduler.entries == Survivors(s.entries, PassLog(s, heap, now, skipAfterRemoval, oracle))
    ensures p.heap.Keys == heap.Keys && Refers(p.scheduler.entries, p.heap)
    ensures forall id :: id in heap && !RunsTask(s.entries, PassLog(s, heap, now, skipAfterRemoval, oracle), id) ==> p.heap[id] == heap[id]
    ensures Settles(s.entries, PassLog(s, heap, now, skipAfterRemoval, oracle), p.heap)
    ensures RecordsLastRuns(s.entries, PassLog(s, heap, now, skipAfterRemoval, oracle), p.heap)
    ensures KeepsFields(s.entries, PassLog(s, heap, now, skipAfterRemoval, oracle), heap, p.heap)
    ensures p.scheduler == s.(entries := p.scheduler.entries)
    ensures now <= p.clock
    ensures Embeds(p.scheduler.entries, s.entries)
    ensures Repeating(p.scheduler.entries) == Repeating(s.entries)
    ensures |p.examined| <= |s.entries|
    ensures !skipAfterRemoval ==> p.examined == s.entries
  {
    var t := Sweep(s.entries, heap, now, 0, false, skipAfterRemoval, oracle);
    SweepShrinks(s.entries, heap, now, 0, false, skipAfterRemoval, oracle);
    SweepEmbeds(s.entries, heap, now, 0, false, skipAfterRemoval, oracle);
    SweepKeepsRepeating(s.entries, heap, now, 0, false, skipAfterRemoval, oracle);
    SweepRefers(s.entries, heap, now, 0, false, skipAfterRemoval, oracle);
    SweepExaminesAll(s.entries, heap, now, 0, oracle);
    SweepSurvivors(s.entries, heap, now, 0, false, skipAfterRemoval, oracle);
    SweepHeapFrame(s.entries, heap, now, 0, false, skipAfterRemoval, oracle);
    SweepSettlesRunTasks(s.entries, heap, now, 0, false, skipAfterRemoval, oracle);
    SweepRecordsLastRuns(s.entries, heap, now, 0, false, skipAfterRemoval, oracle);
    SweepKeepsFields(s.entries, heap, now, 0, false, skipAfterRemoval, oracle);
    Pass(s.(entries := t.entries), t.heap, t.clock, t.examined)
  }

  /** What the log of a pass says: an entry runs exactly when it is examined,
      due at the clock of that moment, and its task was not `Running` when
      the pass began; the first entry is examined at `now` before any
      execution; each later step follows the one before (the clock advanced
      by the run's duration, the execution count by one, and the entry
      examined unless the previous one was removed and the pass skips after
      removals); each execution gets the oracle's answer for its number. */
  lemma PassLogSteps(s: Scheduler, heap: Heap, now: int, skipAfterRemoval: bool, oracle: nat -> Run)
    requires Refers(s.entries, heap)
    ensures var log := PassLog(s, heap, now, skipAfterRemoval, oracle);
            (forall i :: 0 <= i < |s.entries| ==>
               (log[i].ran <==> log[i].examined && IsDue(s.entries[i], log[i].at) && heap[s.entries[i].task].status != Running))
            && (|s.entries| > 0 ==> log[0].examined && log[0].at == now && log[0].k == 0)
            && Chained(s.entries, log, skipAfterRemoval)
            && Answered(log, oracle, now)
  {
    LogRuns(s.entries, heap, now, 0, false, skipAfterRemoval, oracle);
    LogChain(s.entries, heap, now, 0, false, skipAfterRemoval, oracle);
    LogAnswers(s.entries, heap, now, 0, false, skipAfterRemoval, oracle);
  }

  /** The literal loop started at index 0 is the sweep of the whole list. */
  lemma RunFromAtStart(entries: seq<Entry>, heap: Heap, now: int, oracle: nat -> Run)
    requires Refers(entries, heap)
    ensures var t := RunFrom(entries, 0, heap, now, 0, [], oracle);
            var w := Sweep(entries, heap, now, 0, false, true, oracle);
            t.entries == w.entries && t.heap == w.heap && t.clock == w.clock && t.examined == w.examined
  {
    RunFromIsSweep(entries, 0, heap, now, 0, [], oracle);
    assert entries[..0] == [] && entries[0..] == entries;
    var w := Sweep(entries, heap, now, 0, false, true, oracle);
    assert [] + w.entries == w.entries && [] + w.examined == w.examined;
  }

  /** `Scheduler.run_once()` as written, started at clock time `now`: the
      loop over the live list is the sweep that passes over the entry after
      each removal. */
  function RunOnce(s: Scheduler, heap: Heap, now: int, oracle: nat -> Run): (p: Pass)
    requires Refers(s.entries, heap)
    ensures p == SweepPass(s, heap, now, true, oracle)
  {
    var t := RunFrom(s.entries, 0, heap, now, 0, [], oracle);
    RunFromAtStart(s.entries, heap, now, oracle);
    Pass(s.(entries := t.entries), t.heap, t.clock, t.examined)
  }

  /** In the sweep as written, each removal hides the next entry from the
      pass, unless the removed entry was the last one: the entries left
      unexamined number the removals, or one fewer. */
  lemma {:induction false} SweepSkipsOnePerRemoval(rest: seq<Entry>, heap: Heap, clock: int, runs: nat, skipNext: bool, oracle: nat -> Run)
    requires Refers(rest, heap)
    ensures var t := Sweep(rest, heap, clock, runs, skipNext, true, oracle);
            var removed := |rest| - |t.entries|;
            var unexamined := |rest| - |t.examined|;
            var pending := if skipNext then 1 else 0;
            removed + pending - 1 <= unexamined <= removed + pending
    decreases |rest|
  {
    if rest != [] {
      if skipNext {
        SweepSkipsOnePerRemoval(rest[1..], heap, clock, runs, false, oracle);
      } else {
        var v := Visit(rest[0], heap, clock, oracle(runs));
        SweepSkipsOnePerRemoval(rest[1..], v.heap, v.clock, if v.ran then runs + 1 else runs, v.kept.None?, oracle);
      }
    }
  }

  /** `run_once` as written leaves unexamined as many entries as it removes,
      or one fewer; when it removes nothing it examines every entry. */
  lemma RunOnceSkipsOnePerRemoval(s: Scheduler, heap: Heap, now: int, oracle: nat -> Run)
    requires Refers(s.entries, heap)
    ensures var p := RunOnce(s, heap, now, oracle);
            var removed := |s.entries| - |p.scheduler.entries|;
            var unexamined := |s.entries| - |p.examined|;
            removed - 1 <= unexamined <= removed
  {
    SweepSkipsOnePerRemoval(s.entries, heap, now, 0, false, oracle);
  }

  /** A skipping pass that removes nothing is the pass that skips nothing. */
  lemma {:induction false} SweepAgreesWithoutRemoval(rest: seq<Entry>, heap: Heap, clock: int, runs: nat, oracle: nat -> Run)
    requires Refers(rest, heap)
    requires |Sweep(rest, heap, clock, runs, false, true, oracle).entries| == |rest|
    ensures Sweep(rest, heap, clock, runs, false, true, oracle) == Sweep(rest, heap, clock, runs, false, false, oracle)
    decreases |rest|
  {
    if rest != [] {
      var v := Visit(rest[0], heap, clock, oracle(runs));
      var runs' := if v.ran then runs + 1 else runs;
      SweepShrinks(rest[1..], v.heap, v.clock, runs', v.kept.None?, true, oracle);
      SweepAgreesWithoutRemoval(rest[1..], v.heap, v.clock, runs', oracle);
    }
  }

  /** When `run_once` as written removes no entry, it does exactly what the
      corrected pass does: the skip only ever follows a removal. */
  lemma RunOnceAgreesWithoutRemoval(s: Scheduler, heap: Heap, now: int, oracle: nat -> Run)
    requires Refers(s.entries, heap)
    requires |RunOnce(s, heap, now, oracle).scheduler.entries| == |s.entries|
    ensures RunOnce(s, heap, now, oracle) == RunOnceSnapshot(s, heap, now, oracle)
  {
    SweepAgreesWithoutRemoval(s.entries, heap, now, 0, oracle);
  }

  /** Two due one-shot entries whose work succeeds: `run_once` as written
      runs the first, removes it, and never looks at the second, which stays
      in the list unrun and still due. */
  lemma RunOnceSkipsEntryAfterRemoval(name: string, now: int)
    ensures var heap := map[0 := NewTask(name, "", now), 1 := NewTask(name, "", now)];
            var first := Entry(0, now, None, false, None);
            var second := Entry(1, now, None, false, None);
            var p := RunOnce(Scheduler(Values.Nil, [first, second], false), heap, now, (k: nat) => Run(Returns(Values.Nil), 0));
            p.examined == [first] && p.scheduler.entries == [second]
              && p.heap[1].status == Pending && IsDue(second, p.clock)
  {
    var heap := map[0 := NewTask(name, "", now), 1 := NewTask(name, "", now)];
    var first := Entry(0, now, None, false, None);
    var second := Entry(1, now, None, false, None);
    var oracle := (k: nat) => Run(Returns(Values.Nil), 0);
    var entries := [first, second];
    assert ShouldRun(first, heap, now);
    var v := Visit(first, heap, now, oracle(0));
    assert v.kept == None && v.ran && v.clock == now && v.heap[1] == heap[1];
    var t0 := Sweep([], v.heap, v.clock, 1, false, true, oracle);
    assert t0 == Trace([], v.heap, v.clock, 1, []);
    assert [second][1..] == [];
    var t1 := Sweep([second], v.heap, v.clock, 1, true, true, oracle);
    assert t1 == t0.(entries := [second] + t0.entries);
    assert entries[0] == first && entries[1..] == [second];
    var t := Sweep(entries, heap, now, 0, false, true, oracle);
    assert t == t1.(entries := [] + t1.entries, examined := [first] + t1.examined);
    assert t.entries == [second] && t.examined == [first];
  }

  /** The corrected pass, iterating over a snapshot of the list (`for st in
      list(self.scheduled_tasks)`): every entry present at the start is
      examined exactly once, in order. */
  function RunOnceSnapshot(s: Scheduler, heap: Heap, now: int, oracle: nat -> Run): (p: Pass)
    requires Refers(s.entries, heap)
    ensures p.examined == s.entries
    ensures var log := PassLog(s, heap, now, false, oracle);
            forall i :: 0 <= i < |s.entries| ==>
              log[i].examined
              && (IsDue(s.entries[i], now) && heap[s.entries[i].task].status != Running ==> log[i].ran)
    ensures p.scheduler.entries == Survivors(s.entries, PassLog(s, heap, now, false, oracle))
    ensures Embeds(p.scheduler.entries, s.entries) && Repeating(p.scheduler.entries) == Repeating(s.entries)
  {
    SnapshotRunsDue(s, heap, now, oracle);
    SweepPass(s, heap, now, false, oracle)
  }

  /** In the corrected pass every entry is examined, so every entry due when
      the pass starts whose task is not `Running` is run: it stays due as the
      clock advances. */
  lemma SnapshotRunsDue(s: Scheduler, heap: Heap, now: int, oracle: nat -> Run)
    requires Refers(s.entries, heap)
    ensures var log := PassLog(s, heap, now, false, oracle);
            forall i :: 0 <= i < |s.entries| ==>
              log[i].examined
              && (IsDue(s.entries[i], now) && heap[s.entries[i].task].status != Running ==> log[i].ran)
  {
    var log := PassLog(s, heap, now, false, oracle);
    PassLogSteps(s, heap, now, false, oracle);
    forall i | 0 <= i < |s.entries|
      ensures log[i].examined
      ensures IsDue(s.entries[i], now) && heap[s.entries[i].task].status != Running ==> log[i].ran
    {
      if i > 0 {
        assert Follows(log[i - 1], s.entries[i - 1], log[i], false);
      }
      if IsDue(s.entries[i], now) {
        assert now <= log[i].at;
        DueStaysDue(s.entries[i], now, log[i].at);
      }
    }
  }

  /** On the same two due one-shot entries, the corrected pass runs and
      removes both. */
  lemma SnapshotRunsBoth(name: string, now: int)
    ensures var heap := map[0 := NewTask(name, "", now), 1 := NewTask(name, "", now)];
            var first := Entry(0, now, None, false, None);
            var second := Entry(1, now, None, false, None);
            var p := RunOnceSnapshot(Scheduler(Values.Nil, [first, second], false), heap, now, (k: nat) => Run(Returns(Values.Nil), 0));
            p.scheduler.entries == [] && p.heap[0].status == Completed && p.heap[1].status == Completed
  {
    var heap := map[0 := NewTask(name, "", now), 1 := NewTask(name, "", now)];
    var first := Entry(0, now, None, false, None);
    var second := Entry(1, now, None, false, None);
    var oracle := (k: nat) => Run(Returns(Values.Nil), 0);
    var entries := [first, second];
    assert ShouldRun(first, heap, now);
    var v := Visit(first, heap, now, oracle(0));
    assert v.kept == None && v.ran && v.clock == now && v.heap[1] == heap[1] && v.heap[0].status == Completed;
    assert ShouldRun(second, v.heap, now);
    var w := Visit(second, v.heap, v.clock, oracle(1));
    assert w.kept == None && w.ran && w.heap[0] == v.heap[0] && w.heap[1].status == Completed;
    var t0 := Sweep([], w.heap, w.clock, 2, false, false, oracle);
    assert t0 == Trace([], w.heap, w.clock, 2, []);
    assert [second][1..] == [];
    var t1 := Sweep([second], v.heap, v.clock, 1, false, false, oracle);
    assert t1 == t0.(entries := [] + t0.entries, examined := [second] + t0.examined);
    assert entries[0] == first && entries[1..] == [second];
    var t := Sweep(entries, heap, now, 0, false, false, oracle);
    assert t == t1.(entries := [] + t1.entries, examined := [first] + t1.examined);
    assert t.entries == [] && t.heap == w.heap;
  }

  /** A due one-shot entry whose work succeeds is run, and its entry is
      gone after the pass; its task is `Completed`. */
  lemma SucceedingOneShotLeaves(s: Scheduler, heap: Heap, now: int, oracle: nat -> Run)
    requires Refers(s.entries, heap)
    requires |s.entries| == 1 && !s.entries[0].repeat
    requires ShouldRun(s.entries[0], heap, now)
    requires oracle(0).outcome.Returns?
    ensures var p := RunOnce(s, heap, now, oracle);
            p.scheduler.entries == [] && p.examined == s.entries
              && p.heap[s.entries[0].task].status == Completed
  {
    var e := s.entries[0];
    var v := Visit(e, heap, now, oracle(0));
    assert v.kept == None && v.ran;
    assert v.heap[e.task].status == Completed;
    var t0 := Sweep([], v.heap, v.clock, 1, true, true, oracle);
    assert t0 == Trace([], v.heap, v.clock, 1, []);
    assert s.entries[1..] == [];
    var t := Sweep(s.entries, heap, now, 0, false, true, oracle);
    assert t == t0.(entries := [] + t0.entries, examined := [e] + t0.examined);
    assert [e] + [] == s.entries;
  }

  /** A due one-shot entry whose work raises stays in the list with no
      `last_run`; its task is `Failed`, so it is due and runnable on every
      later pass. */
  lemma FailingOneShotIsRetried(s: Scheduler, heap: Heap, now: int, oracle: nat -> Run, later: int)
    requires Refers(s.entries, heap)
    requires |s.entries| == 1 && !s.entries[0].repeat && s.entries[0].lastRun.None?
    requires ShouldRun(s.entries[0], heap, now)
    requires oracle(0).outcome.Raises?
    requires later >= now
    ensures var p := RunOnce(s, heap, now, oracle);
            p.scheduler.entries == s.entries
              && p.heap[s.entries[0].task].status == Failed
              && ShouldRun(s.entries[0], p.heap, later)
  {
    var e := s.entries[0];
    var v := Visit(e, heap, now, oracle(0));
    assert v.kept == Some(e) && v.ran;
    assert v.heap[e.task].status == Failed;
    var t0 := Sweep([], v.heap, v.clock, 1, false, true, oracle);
    assert t0 == Trace([], v.heap, v.clock, 1, []);
    assert s.entries[1..] == [];
    var t := Sweep(s.entries, heap, now, 0, false, true, oracle);
    assert t == t0.(entries := [e] + t0.entries, examined := [e] + t0.examined);
    assert [e] + [] == s.entries;
  }
}

=== FILE: scheduling.dfy ===
/** `ScheduledTask` and the list operations of `Scheduler`. Python shares one
    `Task` object between the manager's registry and any number of scheduled
    entries; here tasks live in a heap indexed by `TaskId` and entries refer
    to them by id. */
module Scheduling {
  import opened Wrappers
  import opened Values
  import opened Sequences
  import opened Tasks

  /** The identity of a `Task` object. */
  type TaskId = nat

  /** All task objects, by identity. */
  type Heap = map<TaskId, Task>

  /** A `ScheduledTask`: the task it runs, when it first becomes due, the
      optional interval in seconds, whether it recurs, and when it last ran. */
  datatype Entry = Entry(
    task: TaskId,
    scheduleTime: int,
    interval: Option<int>,
    repeat: bool,
    lastRun: Option<int>)

  /** `ScheduledTask(task, schedule_time, interval, repeat)` created at clock
      time `now`: an omitted schedule time means "now". */
  function NewEntry(task: TaskId, scheduleTime: Option<int>, interval: Option<int>, repeat: bool, now: int): (e: Entry)
    ensures e.task == task && e.interval == interval && e.repeat == repeat
    ensures e.scheduleTime == (if scheduleTime.Some? then scheduleTime.value else now)
    ensures e.lastRun == None
  {
    Entry(task, if scheduleTime.Some? then scheduleTime.value else now, interval, repeat, None)
  }

  /** The test `self.interval and self.repeat`: an interval of 0, like a
      missing one, counts as no interval. */
  predicate Recurs(e: Entry): (r: bool)
    ensures !e.repeat || e.interval == None || e.interval == Some(0) ==> !r
    ensures e.repeat && e.interval.Some? && e.interval.value != 0 ==> r
  {
    e.interval.Some? && e.interval.value != 0 && e.repeat
  }

  /** `ScheduledTask.is_due()` at clock time `now`. */
  function IsDue(e: Entry, now: int): (due: bool)
    ensures e.lastRun.None? ==> (due <==> now >= e.scheduleTime)
    ensures e.lastRun.Some? && Recurs(e) ==> (due <==> now >= e.lastRun.value + e.interval.value)
    ensures e.lastRun.Some? && !Recurs(e) ==> !due
  {
    if e.lastRun.None? then now >= e.scheduleTime
    else if Recurs(e) then now >= e.lastRun.value + e.interval.value
    else false
  }

  /** `ScheduledTask.should_run()`: never while its task is running,
      otherwise exactly when it is due. */
  function ShouldRun(e: Entry, heap: Heap, now: int): (run: bool)
    requires e.task in heap
    ensures heap[e.task].status == Running ==> !run
    ensures heap[e.task].status != Running ==> run == IsDue(e, now)
  {
    heap[e.task].status != Running && IsDue(e, now)
  }

  /** Once due, an entry stays due as time passes until it runs again. */
  lemma DueStaysDue(e: Entry, now: int, later: int)
    requires IsDue(e, now) && now <= later
    ensures IsDue(e, later)
  {
  }

  /** A recurring entry that last ran at `last` is due again exactly
      `interval` seconds later, never sooner; a non-recurring entry that has
      run is never due again. */
  lemma DueAgainAfterInterval(e: Entry, last: int, now: int)
    ensures Recurs(e) ==> (IsDue(e.(lastRun := Some(last)), now) <==> now >= last + e.interval.value)
    ensures !Recurs(e) ==> !IsDue(e.(lastRun := Some(last)), now)
  {
  }

  /** Every entry refers to a task in the heap. */
  predicate Refers(entries: seq<Entry>, heap: Heap) {
    forall j :: 0 <= j < |entries| ==> entries[j].task in heap
  }

  /** A `Scheduler`: its poll interval (as read from the configuration), its
      entries in insertion order, and the flag of its run loop. */
  datatype Scheduler = Scheduler(checkInterval: Value, entries: seq<Entry>, running: bool)

  /** `Scheduler(check_interval)`. */
  function NewScheduler(checkInterval: Value): (s: Scheduler)
    ensures s.checkInterval == checkInterval && s.entries == [] && !s.running
  {
    Scheduler(checkInterval, [], false)
  }

  /** `Scheduler.schedule_task(...)` at clock time `now`: the new entry, which
      is returned, is appended at the end; nothing is deduplicated. */
  function ScheduleTask(s: Scheduler, task: TaskId, scheduleTime: Option<int>, interval: Option<int>, repeat: bool, now: int): (r: (Scheduler, Entry))
    ensures r.1 == NewEntry(task, scheduleTime, interval, repeat, now)
    ensures r.0.entries == s.entries + [r.1]
    ensures |r.0.entries| == |s.entries| + 1
    ensures r.0.checkInterval == s.checkInterval && r.0.running == s.running
  {
    var e := NewEntry(task, scheduleTime, interval, repeat, now);
    (s.(entries := s.entries + [e]), e)
  }

  /** `Scheduler.stop()`: clears the run flag and nothing else. */
  function Stop(s: Scheduler): (r: Scheduler)
    ensures !r.running && r.entries == s.entries && r.checkInterval == s.checkInterval
  {
    s.(running := false)
  }

  /** `Scheduler.get_pending_tasks()`: exactly the entries whose task is
      pending (not whether they are due), each as often as listed, in order. */
  function PendingTasks(s: Scheduler, heap: Heap): (r: seq<Entry>)
    requires Refers(s.entries, heap)
    ensures forall e :: e in r <==> e in s.entries && heap[e.task].status == Pending
    ensures forall e :: e in s.entries ==> multiset(r)[e] == if heap[e.task].status == Pending then multiset(s.entries)[e] else 0
    ensures IsSubsequence(r, s.entries)
  {
    Filter(s.entries, (e: Entry) => e.task in heap && heap[e.task].status == Pending)
  }

  /** The retention rule of `clear_completed_tasks`: recurring entries and
      entries whose task has not completed are kept. */
  predicate Retained(e: Entry, heap: Heap) {
    e.task in heap && (e.repeat || heap[e.task].status != Completed)
  }

  /** `Scheduler.clear_completed_tasks()`: keeps exactly the entries that are
      recurring or whose task is not `Completed` (failed one-shots stay), each
      as often as listed, in order. */
  function ClearCompletedTasks(s: Scheduler, heap: Heap): (r: Scheduler)
    requires Refers(s.entries, heap)
    ensures forall e :: e in r.entries <==> e in s.entries && (e.repeat || heap[e.task].status != Completed)
    ensures forall e :: e in s.entries ==> multiset(r.entries)[e] == if Retained(e, heap) then multiset(s.entries)[e] else 0
    ensures IsSubsequence(r.entries, s.entries)
    ensures r.checkInterval == s.checkInterval && r.running == s.running
  {
    s.(entries := Filter(s.entries, (e: Entry) => Retained(e, heap)))
  }

  /** Clearing completed entries never drops a pending one. */
  lemma ClearKeepsPending(s: Scheduler, heap: Heap)
    requires Refers(s.entries, heap)
    ensures Refers(ClearCompletedTasks(s, heap).entries, heap)
    ensures PendingTasks(ClearCompletedTasks(s, heap), heap) == PendingTasks(s, heap)
  {
    var keep := (e: Entry) => Retained(e, heap);
    var pending := (e: Entry) => e.task in heap && heap[e.task].status == Pending;
    FilterAbsorbs(s.entries, keep, pending);
  }

  /** Filtering by a weaker condition first does not change a filter. */
  lemma {:induction false} FilterAbsorbs(s: seq<Entry>, weak: Entry -> bool, strong: Entry -> bool)
    requires forall e :: strong(e) ==> weak(e)
    ensures Filter(Filter(s, weak), strong) == Filter(s, strong)
    decreases |s|
  {
    if s != [] {
      FilterAbsorbs(s[1..], weak, strong);
      if weak(s[0]) {
        assert ([s[0]] + Filter(s[1..], weak))[1..] == Filter(s[1..], weak);
      }
    }
  }
}

=== FILE: sequences.dfy ===
/** Facts about sequences shared by the scheduler and the manager: order-keeping
    filters (Python list comprehensions with a condition) and distinctness. */
module Sequences {

  /** True iff `a` is obtained from `b` by deleting elements, keeping order. */
  predicate IsSubsequence<T(==)>(a: seq<T>, b: seq<T>)
    decreases |b|
  {
    if a == [] then true
    else if b == [] then false
    else (a[0] == b[0] && IsSubsequence(a[1..], b[1..])) || IsSubsequence(a, b[1..])
  }

  /** `[x for x in s if keep(x)]`: exactly the elements of `s` that satisfy
      `keep`, each as often as in `s`, in their original order. */
  function Filter<T(==,!new)>(s: seq<T>, keep: T -> bool): (r: seq<T>)
    ensures |r| <= |s|
    ensures forall x :: x in r <==> x in s && keep(x)
    ensures forall x :: multiset(r)[x] == if keep(x) then multiset(s)[x] else 0
    ensures IsSubsequence(r, s)
    decreases |s|
  {
    if s == [] then []
    else
      assert s == [s[0]] + s[1..];
      if keep(s[0]) then [s[0]] + Filter(s[1..], keep) else Filter(s[1..], keep)
  }

  /** No element occurs twice. */
  predicate Distinct<T(==)>(s: seq<T>) {
    forall i, j :: 0 <= i < j < |s| ==> s[i] != s[j]
  }
}

=== FILE: task.dfy ===
/** `Task`: a named unit of work with a lifecycle status, the result or error
    of its last execution, and timestamps. The wrapped Python callable and its
    arguments are replaced by an execution oracle: each execution is given the
    outcome the callable would have produced and how long it took. */
module Tasks {
  import opened Wrappers
  import opened Values

  /** `TaskStatus`. */
  datatype Status = Pending | Running | Completed | Failed | Cancelled

  /** What calling the work produced: a return value, or an exception whose
      `str()` is `message`. */
  datatype Outcome = Returns(value: Value) | Raises(message: string)

  /** One execution of the work: its outcome and its duration in seconds (the
      clock does not run backwards). */
  datatype Run = Run(outcome: Outcome, duration: nat)

  /** A task. `result` is Python's `None` (`Nil`) until a successful run
      stores a value; times are clock readings in seconds. */
  datatype Task = Task(
    name: string,
    description: string,
    status: Status,
    result: Value,
    error: Option<string>,
    createdAt: int,
    startedAt: Option<int>,
    completedAt: Option<int>)

  /** `Task(name, func, args, kwargs, description)` created at clock time `now`. */
  function NewTask(name: string, description: string, now: int): (t: Task)
    ensures t.name == name && t.description == description && t.createdAt == now
    ensures t.status == Pending
    ensures t.result == Nil && t.error == None
    ensures t.startedAt == None && t.completedAt == None
  {
    Task(name, description, Pending, Nil, None, now, None, None)
  }

  /** The task after `execute()`, and what the caller of `execute()` sees:
      the value returned, or the same failure re-raised. */
  datatype Executed = Executed(task: Task, outcome: Outcome)

  /** `Task.execute()` started at clock time `start`. Any status may be
      re-executed; on success the previous error is kept, on failure the
      previous result is kept. */
  function Execute(t: Task, run: Run, start: int): (x: Executed)
    ensures x.outcome == run.outcome
    ensures x.task.startedAt == Some(start)
    ensures x.task.completedAt == Some(start + run.duration)
    ensures run.outcome.Returns? ==>
      x.task.status == Completed && x.task.result == run.outcome.value && x.task.error == t.error
    ensures run.outcome.Raises? ==>
      x.task.status == Failed && x.task.error == Some(run.outcome.message) && x.task.result == t.result
    ensures x.task.name == t.name && x.task.description == t.description && x.task.createdAt == t.createdAt
  {
    var running := t.(status := Running, startedAt := Some(start));
    var finish := start + run.duration;
    match run.outcome
    case Returns(v) => Executed(running.(result := v, status := Completed, completedAt := Some(finish)), run.outcome)
    case Raises(msg) => Executed(running.(status := Failed, error := Some(msg), completedAt := Some(finish)), run.outcome)
  }

  /** `Task.cancel()`: a pending task becomes cancelled; any other task is
      left exactly as it is. */
  function Cancel(t: Task): (r: Task)
    ensures t.status == Pending ==> r.status == Cancelled
    ensures t.status != Pending ==> r == t
    ensures r == t.(status := r.status)
  {
    if t.status == Pending then t.(status := Cancelled) else t
  }

  /** `Task.get_duration()`: seconds from start to completion, present only
      when both timestamps are. */
  function Duration(t: Task): (d: Option<int>)
    ensures d.Some? <==> t.startedAt.Some? && t.completedAt.Some?
    ensures d.Some? ==> t.startedAt.value + d.value == t.completedAt.value
  {
    if t.startedAt.Some? && t.completedAt.Some? then Some(t.completedAt.value - t.startedAt.value) else None
  }

  /** An operation a caller can apply to a task. */
  datatype Op = ExecuteOp(run: Run, start: int) | CancelOp

  /** The task after applying `ops` in order. */
  function Apply(t: Task, ops: seq<Op>): Task
    decreases |ops|
  {
    if ops == [] then t
    else
      var t' := match ops[0]
        case ExecuteOp(run, start) => Execute(t, run, start).task
        case CancelOp => Cancel(t);
      Apply(t', ops[1..])
  }

  /** No sequence of operations leads a task back to `Pending`. */
  lemma {:induction false} NeverPendingAgain(t: Task, ops: seq<Op>)
    requires t.status != Pending
    ensures Apply(t, ops).status != Pending
    decreases |ops|
  {
    if ops != [] {
      var t' := match ops[0]
        case ExecuteOp(run, start) => Execute(t, run, start).task
        case CancelOp => Cancel(t);
      NeverPendingAgain(t', ops[1..]);
    }
  }

  /** A task that is not pending can only leave its status through another
      execution: cancelling never changes it. */
  lemma {:induction false} OnlyExecutionChangesSettledStatus(t: Task, ops: seq<Op>)
    requires t.status != Pending
    requires forall j :: 0 <= j < |ops| ==> ops[j] == CancelOp
    ensures Apply(t, ops) == t
    decreases |ops|
  {
    if ops != [] {
      assert ops[0] == CancelOp;
      OnlyExecutionChangesSettledStatus(t, ops[1..]);
    }
  }

  /** From creation on, `get_duration()` is either absent or non-negative,
      whatever operations are applied, and it is present after any execution. */
  lemma {:induction false} DurationNeverNegative(t: Task, ops: seq<Op>)
    requires Duration(t).None? || Duration(t).value >= 0
    ensures Duration(Apply(t, ops)).None? || Duration(Apply(t, ops)).value >= 0
    ensures (exists j :: 0 <= j < |ops| && ops[j].ExecuteOp?) ==> Duration(Apply(t, ops)).Some?
    decreases |ops|
  {
    if ops != [] {
      var t' := match ops[0]
        case ExecuteOp(run, start) => Execute(t, run, start).task
        case CancelOp => Cancel(t);
      DurationNeverNegative(t', ops[1..]);
      if exists j :: 0 <= j < |ops| && ops[j].ExecuteOp? {
        var j :| 0 <= j < |ops| && ops[j].ExecuteOp?;
        if j > 0 {
          assert ops[1..][j - 1].ExecuteOp?;
        } else {
          ExecutedStaysTimed(t', ops[1..]);
        }
      }
    }
  }

  /** Once a task has both timestamps, no operation removes them. */
  lemma {:induction false} ExecutedStaysTimed(t: Task, ops: seq<Op>)
    requires t.startedAt.Some? && t.completedAt.Some?
    ensures Apply(t, ops).startedAt.Some? && Apply(t, ops).completedAt.Some?
    decreases |ops|
  {
    if ops != [] {
      var t' := match ops[0]
        case ExecuteOp(run, start) => Execute(t, run, start).task
        case CancelOp => Cancel(t);
      ExecutedStaysTimed(t', ops[1..]);
    }
  }

  /** A task that failed and is then executed successfully is `Completed`
      but still carries the earlier error text. */
  lemma StaleErrorAfterRerun(t: Task, msg: string, v: Value, d1: nat, d2: nat, s1: int, s2: int)
    ensures var failed := Execute(t, Run(Raises(msg), d1), s1).task;
            var rerun := Execute(failed, Run(Returns(v), d2), s2).task;
            rerun.status == Completed && rerun.result == v && rerun.error == Some(msg)
  {
  }
}

=== FILE: values.dfy ===
/** The dynamically typed values the package stores: configuration entries
    (as loaded from YAML) and the results returned by a task's work. */
module Values {

  /** `Nil` is Python's `None`; `Dict` is a nested mapping with string keys.
      Every other Python value (floats, lists, ...) behaves like the scalar
      cases here: it is simply "not a dict". */
  datatype Value =
    | Nil
    | Bool(b: bool)
    | Int(n: int)
    | Str(s: string)
    | Dict(d: map<string, Value>)
}

=== FILE: wrappers.dfy ===
/** Optional values and success/failure results, used in place of Python's
    `None` and of raised exceptions. */
module Wrappers {

  /** A value that may be absent (Python `None`). */
  datatype Option<T> = None | Some(value: T)

  /** Either a normal result or the error a Python call would raise. */
  datatype Result<T, E> = Success(value: T) | Failure(error: E)
}
